=== FILE: README.md ===
# Token bucket visualisation — a Dafny model of the simulation core

The repository animates a token bucket rate limiter. Tokens and requests
travel towards a bucket for 120 animation frames. A token that arrives
raises the bucket level, unless the bucket is full. A request that arrives
takes one token and becomes *processed*, or finds the bucket empty and
becomes *dropped*. A resolved request then travels away for another 120
frames before it leaves the model. Tokens are produced at a fixed rate.
Requests come either from a button or automatically, at a fixed rate, with
an optional random head start (the "burstiness").

This project models the pure simulation logic of `src/tokenBucket.ts`:

- the data model: items, the bucket and the simulation state;
- the three animation constants;
- state creation, request and token injection, and bucket resizing;
- the per-frame update;
- the text summary of a state.

It proves properties of that logic:

- bounds on positions and on the bucket level;
- the order in which arrivals share the bucket;
- the lifetimes of resolved requests;
- termination of the recursive frame update, and that one frame injects at most one automatic request (`FrameInjectsAtMostOneRequest`);
- that the text summary reads back to exactly what it shows.

It also replays most of the scenarios of the unit tests in `src/tokenBucket.spec.ts`; the ones it does not replay are listed under "## Left out".

Files:

- `optional.dfy` — `Option`, usable with `:-`.
- `token_bucket.dfy` — module `TokenBucket`: the data model and every operation, with contracts.
- `token_bucket_proofs.dfy` — module `TokenBucketProofs`: properties relating several operations or frames, and the unit-test scenarios.
- `decimal.dfy` — module `Decimal`: whole numbers printed as decimal numerals, as the template strings do below 10^21, and parsed back.
- `summary.dfy` — module `Summary`: `formatState`, its parser and the round trip.

How the model represents the source:

- **Rates become periods.** The source stores rates in the state and recomputes `Math.floor(framesPerSecond / rate)` each time a countdown restarts. The model computes these periods once, in `CreateInitialState`, and stores them.
  - A token rate of 0 gives a countdown of `Infinity` in the source. It is the `Never` tick count here.
  - A request rate of 0 or below switches automatic requests off. It is `None` here.
- **The random draw is a parameter.** `Math.random()` in `addRequest` becomes an explicit `draw`, a whole number below `DrawBound(burstiness)`.
- **Numbers are integers.** Positions are the integer floors the source computes with `Math.floor`, and ages and levels are integers.
- **The frame update recurses like the source.**
  - When the token countdown reaches 0, `UpdateState` adds a token and runs the whole frame again.
  - When the request countdown reaches 0, it adds a request and runs the whole frame again.
  - Otherwise it steps every item once.

  `ValidPeriods` (a token period of at least 2 frames, and a request period of at least 3, or of 2 while tokens are off) is the precondition under which this recursion ends. `InterfaceSettingsTerminate` shows that every setting the user interface offers meets it.

Three behaviours of the code are easy to misread; the model keeps them as written:

- **Token period.** In a frame where a token falls due, the source runs its countdowns a second time, because it calls `updateState` again on the new state. The next token is therefore due after `P - 1` frames, not `P` (`TokenFrameRunsCountdownTwice`). The unit test at `src/tokenBucket.spec.ts:97-119`, which expects 11 items, relies on this.
- **Frame counter.** `frameCount` also grows by one for every injection in that frame, so it counts update calls, not frames.
- **Dropped requests.** Dropped requests travel away using the *processed* lifetime when their position is computed (`src/tokenBucket.ts:229`). Both lifetimes are 120, so this changes nothing.

## Model

| member | source | states |
|---|---|---|
| TokenBucket.CreateInitialState | src/tokenBucket.ts:43-68 | The bucket starts full. There are no items, the next id is 1 and the frame counter is 0. The token countdown starts at its period: the floor of frames per second over the token rate, or never when the rate is 0. Automatic requests are on exactly when the request rate is positive; their countdown then starts at its period, otherwise it is 0. The result is a valid state when the capacity is not negative. |
| TokenBucket.FramesBetween | src/tokenBucket.ts:60 | The number of frames between two events is the floor of frames per second over the rate. |
| TokenBucket.DrawBound | src/tokenBucket.ts:78-83 | There is always at least one possible head start. |
| TokenBucket.AddRequest | src/tokenBucket.ts:73-102 | Appends exactly one request and keeps the existing items. The request has the next id, its drawn age and the floor of age times 100 over 120 as its position; with no burstiness, both age and position are 0. The next id grows by one. The request countdown restarts only when automatic requests are on. Nothing else changes, and validity is preserved. |
| TokenBucket.AddToken | src/tokenBucket.ts:107-123 | Appends exactly one token with the next id, age 0 and position 0, and keeps the existing items. The next id grows by one and the token countdown restarts at its period. Nothing else changes, and validity is preserved. |
| TokenBucket.SetBucketSize | src/tokenBucket.ts:128-138 | The capacity becomes the new size. The level becomes the smaller of the old level and the new size. Only the bucket changes, and validity is preserved for a size that is not negative. |
| TokenBucket.ApproachPosition | src/tokenBucket.ts:219-223 | A travelling item's position lies in 0..100, is 100 exactly from age 120, and is below that the floor of age times 100 over 120. |
| TokenBucket.DepartPosition | src/tokenBucket.ts:224-233 | A resolved item's position lies in 100..200 from age 120 and is 200 exactly from age 240. Between those ages it is 100 plus the floor of the age past 120, times 100, over the lifetime of 120. |
| TokenBucket.Step | src/tokenBucket.ts:215-272 | Ages one item by one frame. The item is kept exactly when it survives: a token is never kept once it arrives, and a resolved item is kept up to age 240. An item that does not arrive leaves the level and its kind unchanged. An arriving token raises a level below capacity by one. An arriving request becomes processed exactly when the level is positive, and then takes one token; otherwise it is dropped. A kept travelling item is still short of the bucket. A kept resolved item sits at its departure position, whenever a travelling item is stepped before its age reaches 120. |
| TokenBucket.AdvanceItems | src/tokenBucket.ts:211-273 | The pass over all items keeps an order-preserving selection of the stepped items. It keeps the level within the capacity and leaves it unchanged when nothing arrives. Every travelling item it keeps is short of the bucket, and its first item is the first item stepped from the starting level. |
| TokenBucket.StartFrame | src/tokenBucket.ts:184-198 | Counts the frame and moves each countdown one frame closer, never below zero. An infinite token countdown stays infinite, and the request countdown stays put while automatic requests are off. Nothing else changes. |
| TokenBucket.FinishFrame | src/tokenBucket.ts:211-282 | Changes only the level and the items, which are an order-preserving selection of the stepped items; preserves validity. |
| TokenBucket.UpdateState | src/tokenBucket.ts:183-283 | A frame never lowers the next id. The frame counter grows by one plus one per injected item. Capacity, periods and burstiness stay as they were. The frame ends with the token countdown not at 0 and, when automatic requests are on, the request countdown not at 0. Validity is preserved. |
| TokenBucket.SelectionKeepsIds | src/tokenBucket.ts:215-273 | Dropping items from a list never introduces an id outside the range the list's ids lie in. |
| TokenBucketProofs.SetBucketSizeIdempotent | src/tokenBucket.ts:128-138 | Setting the same size twice is the same as setting it once. |
| TokenBucketProofs.ShrinkThenGrowLosesTokens | src/tokenBucket.ts:134-135 | Shrinking below the level and growing back leaves the level at the smaller size: lost tokens are not restored. |
| TokenBucketProofs.PassKeepsExactlySurvivors | src/tokenBucket.ts:236-270 | The items a pass keeps are exactly the survivors, in their order, whatever the bucket level. |
| TokenBucketProofs.AdvanceAppend | src/tokenBucket.ts:211-215 | The pass over a concatenation is the pass over the first part followed by the pass over the second part, from the level the first left. |
| TokenBucketProofs.PassLevelBounds | src/tokenBucket.ts:240-259 | After a pass the level stays within the capacity. It is at least the starting level minus the arriving requests and at most the starting level plus the arriving tokens. |
| TokenBucketProofs.FullBucketStaysFull | src/tokenBucket.spec.ts:142-152 | A full bucket with no arriving request stays full: arriving tokens are wasted. |
| TokenBucketProofs.EmptyBucketDropsArrivals | src/tokenBucket.ts:250-258 | An empty bucket with no arriving token stays empty and marks no request processed. |
| TokenBucketProofs.SharedLevelAdmitsInOrder | src/tokenBucket.ts:250-258 | Two requests arrive together with one token left: the first is processed and the second dropped. |
| TokenBucketProofs.TokenAheadServesRequest | src/tokenBucket.ts:240-258 | A token arriving earlier in the list, in the same frame, serves a request arriving at an empty bucket. |
| TokenBucketProofs.TokenBehindComesTooLate | src/tokenBucket.ts:240-258 | A token arriving later in the list, in the same frame, comes too late: the request is dropped and the token is banked. |
| TokenBucketProofs.ResolvedLingers | src/tokenBucket.ts:263-270 | A processed or dropped item stays, with its kind, exactly while its age is at most 240. |
| TokenBucketProofs.ResolvedRemovedAfterLifetime | src/tokenBucket.ts:263-270 | A request resolved at age 120 is still present 120 frames later and gone one frame after that. |
| TokenBucketProofs.OldItemsSettleFirst | src/tokenBucket.ts:201-208 | Items present before a frame are stepped exactly once, from the level the frame started with, whatever is injected. Injected items come after them. A frame that injects nothing is exactly that one pass. |
| TokenBucketProofs.InjectedItemComesLast | src/tokenBucket.ts:201-208 | After one injection, the rerun frame still starts with the pass over the items present before it. |
| TokenBucketProofs.FrameInjectsAtMostOneRequest | src/tokenBucket.ts:201-208 | Of the items that follow the pass over the old items at the end of a frame, at most one is not a token, so a frame injects at most one automatic request. A frame given no draw injects only tokens. |
| TokenBucketProofs.InjectionsAfterOne | src/tokenBucket.ts:201-208 | After one injection, the rerun frame keeps this bound: a new token is still a token after its first step, and a new request never is one. |
| TokenBucketProofs.InjectedItemStep | src/tokenBucket.ts:215-259 | A new token survives its first step as a token, and a new request is never stepped into a token. |
| TokenBucketProofs.FrameSchedule | src/tokenBucket.ts:186-208 | A token due this frame is injected, and it is the first item after the pass over the old items, one frame old at the start of its path. A request due this frame is injected too, after the token when both are due, and its countdown ends the frame one or two frames below the period. A frame with nothing due injects nothing and moves both countdowns one frame closer. |
| TokenBucketProofs.DueRequestRestartsCountdown | src/tokenBucket.ts:192-207 | A due request is injected, as the second injection when a token is due too, and the frame ends with the request countdown at the period minus one or minus two. |
| TokenBucketProofs.RequestCountdownAfterInjection | src/tokenBucket.ts:186-208 | Once a request has restarted its countdown at the period, the rest of the frame lowers it by one, or by two when a token falls due in between, and never injects a second request. |
| TokenBucketProofs.FirstInjectedToken | src/tokenBucket.ts:200-203 | The token a frame injects first comes right after the stepped old items, with age 1 and position 0. |
| TokenBucketProofs.QuietFrame | src/tokenBucket.ts:183-199 | With no token rate and no automatic requests, a frame is the countdown step followed by a single pass and counts once. |
| TokenBucketProofs.TokenFrameRunsCountdownTwice | src/tokenBucket.ts:186-202 | In a frame where a token falls due, one token is added, the frame counter grows by two, and the next token is due after one frame less than the period. |
| TokenBucketProofs.InterfaceSettingsTerminate | src/main.ts:67-79 | At 30 frames per second, with a token rate from 0.1 to 5 and a request rate from 0 to 5, every frame update ends. |
| TokenBucketProofs.TokensOffRequestPeriodTwo | src/tokenBucket.ts:43-68 | With tokens off, 30 requests per second at 60 frames per second give a request period of 2 that the model admits, and a due request frame injects exactly one request and leaves the countdown at 1. |
| TokenBucketProofs.Run | src/main.ts:493 | Many frames keep the capacity, periods and burstiness, advance the frame counter at least once per frame, and preserve validity. |
| TokenBucketProofs.FirstRequestTravels | src/tokenBucket.ts:216-223 | The first request, still short of the bucket, advances one step per frame, whatever is injected behind it. |
| TokenBucketProofs.LoneRequest | src/tokenBucket.ts:215-270 | With no producers, a single request travels for 120 frames and is then processed or dropped depending on the level, taking a token if it is processed. It lingers up to age 240 and then leaves. |
| TokenBucketProofs.LoneRequestOutcome | src/tokenBucket.ts:250-270 | With no producers, a lone request is resolved after 120 frames according to the level, and gone after 241 frames. |
| TokenBucketProofs.InitialStateExample | src/tokenBucket.spec.ts:10-21 | A bucket of 10 at 5 tokens per second and 60 frames per second starts full, empty of items, with a 12-frame token countdown. |
| TokenBucketProofs.AddItemExamples | src/tokenBucket.spec.ts:23-52 | The first request and the first token get id 1 at position 0. The next id becomes 2 and the token countdown restarts at 12. |
| TokenBucketProofs.RequestHalfwayAfter60Frames | src/tokenBucket.spec.ts:54-66 | After 60 frames a new request has age 60 and position 50. |
| TokenBucketProofs.DroppedWhenEmptyExample | src/tokenBucket.spec.ts:82-95 | With an empty bucket and no token rate, the request is dropped after 120 frames and the level stays 0. |
| TokenBucketProofs.ProcessedExpiresExample | src/tokenBucket.spec.ts:121-140 | With a non-empty bucket and no token rate, the request is processed after 120 frames and takes a token. After 121 more frames no item is left. |
| Decimal.NatToString | src/tokenBucket.ts:145 | A whole number prints as a non-empty string of digits with no leading zero. |
| Decimal.ValueOfNatToString | src/tokenBucket.ts:145 | Reading a printed numeral back gives the number. |
| Decimal.IntToString | src/tokenBucket.ts:145 | A negative number prints with a leading minus sign, any other number starts with a digit. |
| Decimal.ParseNat | src/tokenBucket.ts:165 | Reads a numeral exactly when the text starts with a digit, and returns the rest of the text. |
| Decimal.ParseNatRoundTrip | src/tokenBucket.ts:165 | A printed numeral followed by a non-digit parses back to the number and the rest. |
| Decimal.ParseIntRoundTrip | src/tokenBucket.ts:145 | A printed, possibly negative, number followed by a non-digit parses back to the number and the rest. |
| Summary.FormatState | src/tokenBucket.ts:143-178 | No contract of its own; `FormatStateRoundTrip` states that the five lines read back to the level, the capacity and the ages of each kind, and `FormatStateExample` gives the exact text of a concrete state. |
| Summary.Join | src/tokenBucket.ts:165-177 | Joining no parts gives the empty string; otherwise the result starts with the first part. |
| Summary.AgesOf | src/tokenBucket.ts:148-162 | The ages of one kind are at most as many as the items, and an age occurs in them exactly when some item of that kind has that age. |
| Summary.AgesOfAppend | src/tokenBucket.ts:148-162 | The ages of a concatenation are the ages of the parts, in order. |
| Summary.ParseListRoundTrip | src/tokenBucket.ts:165-168 | A printed list of ages, closed by a bracket, parses back to the list and the rest. |
| Summary.ParseBucketLineRoundTrip | src/tokenBucket.ts:145 | The printed bucket line parses back to the level and the capacity. |
| Summary.FormatStateRoundTrip | src/tokenBucket.ts:143-178 | The summary text of any state parses back to exactly the level, capacity and ages per kind that it shows. |
| Summary.SummaryOfAddToken | src/tokenBucket.ts:107-123 | Adding a token shows as an extra trailing age 0 in the token list and changes nothing else in the summary. |
| Summary.SummaryOfAddRequest | src/tokenBucket.ts:73-102 | Adding a request shows as an extra trailing age, its head start, in the request list and changes nothing else in the summary. |
| Summary.SummaryOfSetBucketSize | src/tokenBucket.ts:128-138 | Resizing changes only the bucket line: the capacity becomes the new size and the level the smaller of the two. |
| Summary.FormatStateExample | src/tokenBucket.spec.ts:154-187 | The state built in the formatting test prints as the five lines that test expects. |

## Left out

- The animation, drawing and DOM code of `src/main.ts` is left out. So are the slider handlers that assign rates into the state directly, the bursty request generator (`src/bursty-request-generator.ts`) and the build configuration; none of it is part of the simulation logic. `InterfaceSettingsTerminate` takes the slider ranges and the frame rate as given.
- Floating point is left out. Whole numbers print as decimal numerals without exponent; JavaScript prints 10^21 and above in exponent notation (`1e+21`), which a capacity passed to `createInitialState` could reach but the sliders cannot. Positions are exact integer floors, ages and levels are integers, and rates enter only through the floor of frames per second over the rate. A real rate whose quotient is off by a rounding error is not modelled.
- TokenBucket.AddRequest: the position of a new request is the exact floor of age times 100 over 120. In double precision the source computes `Math.floor((age / 120) * 100)`, which differs for some head starts: age 138 gives 114 in the source and 115 here. Such head starts need a burstiness above 2.3, which the slider does not offer. The positions computed during a frame update agree with the source for every age from 0 to 240.
- `Math.random()` is left out. Every head start the draw could produce is a parameter below `DrawBound`, and scenarios over many frames (`TokenBucketProofs.Run`) draw 0.
- A negative token rate is left out: `CreateInitialState` requires a rate of at least 0. The source would store a negative countdown.
- TokenBucket.UpdateState: requires `ValidPeriods`: a token period of at least 2, and a request period of at least 3, or of 2 while tokens are off. A token period of 0 or 1, or a request period of 0 or 1, makes the source recurse without end. So does a request period of 2 together with a token period of 2: the reruns of one frame then inject a token and a request in turn forever. With tokens off, a request period of 2 ends with one request per frame, and the model admits it (`TokensOffRequestPeriodTwo`). With a token period of at least 3, a request period of 2 also ends, but a token injected between two reruns can bring a second automatic request into the same frame. The model's single draw per frame does not cover that, so `ValidPeriods` excludes it.
- The unit test `src/tokenBucket.spec.ts:68-80` (request processed while a token producer runs) is not replayed. Neither is the count of 11 items in `src/tokenBucket.spec.ts:97-119`, nor the 24 frames of `src/tokenBucket.spec.ts:142-152`, which `FullBucketStaysFull` states only in its one-pass form. All three involve tokens injected over many frames. `TokenFrameRunsCountdownTwice` states the mechanism behind the second, and `ProcessedExpiresExample` covers processing without a producer.
- Summary.FormatStateExample: states the expected text split into its five lines, rather than as one literal.

=== FILE: decimal.dfy ===
/**
 * Decimal numerals as JavaScript prints whole numbers below 10^21 in a
 * template string (`${n}`), and the parser that reads them back.
 */
module Decimal {
  import opened Optional

  predicate IsDigit(c: char) {
    '0' <= c <= '9'
  }

  predicate AllDigits(s: string) {
    forall i :: 0 <= i < |s| ==> IsDigit(s[i])
  }

  /** The character of a single decimal digit. */
  function DigitChar(d: nat): (c: char)
    requires d < 10
    ensures IsDigit(c)
  {
    ('0' as int + d) as char
  }

  /** The value of a digit character; the inverse of DigitChar. */
  function DigitValue(c: char): (d: nat)
    requires IsDigit(c)
    ensures d < 10 && DigitChar(d) == c
  {
    c as int - '0' as int
  }

  /** Shortest decimal numeral of `n`: no sign, no leading zero. */
  function NatToString(n: nat): (s: string)
    ensures |s| > 0 && AllDigits(s)
    ensures s[0] == '0' ==> n == 0
  {
    if n < 10 then [DigitChar(n)] else NatToString(n / 10) + [DigitChar(n % 10)]
  }

  /** The value a string of digits denotes, read most significant digit first. */
  function Value(s: string): nat
    requires AllDigits(s)
  {
    if s == [] then 0 else Value(s[..|s| - 1]) * 10 + DigitValue(s[|s| - 1])
  }

  /** Reading a numeral back gives the number it was printed from. */
  lemma {:induction false} ValueOfNatToString(n: nat)
    ensures Value(NatToString(n)) == n
  {
    var s := NatToString(n);
    if n >= 10 {
      ValueOfNatToString(n / 10);
      assert s[..|s| - 1] == NatToString(n / 10);
      assert DigitValue(s[|s| - 1]) == n % 10;
    } else {
      assert DigitValue(s[0]) == n;
    }
  }

  /** A whole number as JavaScript prints it: a minus sign before negative values. */
  function IntToString(i: int): (s: string)
    ensures |s| > 0 && (i >= 0 <==> IsDigit(s[0]))
  {
    if i < 0 then "-" + NatToString(-i) else NatToString(i)
  }

  /** Length of the run of digits that `s` starts with. */
  function DigitRun(s: string): (n: nat)
    ensures n <= |s| && AllDigits(s[..n])
    ensures n < |s| ==> !IsDigit(s[n])
  {
    if s == [] || !IsDigit(s[0]) then 0
    else
      var k := DigitRun(s[1..]);
      assert s[..1 + k] == [s[0]] + s[1..][..k];
      1 + k
  }

  /** The digits `a` followed by a non-digit are read as one run. */
  lemma {:induction false} DigitRunOfNumeral(a: string, t: string)
    requires AllDigits(a)
    requires t == [] || !IsDigit(t[0])
    ensures DigitRun(a + t) == |a|
  {
    if a != [] {
      assert (a + t)[1..] == a[1..] + t;
      DigitRunOfNumeral(a[1..], t);
    }
  }

  /** Reads the unsigned numeral at the front of `s`, returning it and the rest. */
  function ParseNat(s: string): (r: Option<(nat, string)>)
    ensures r.Some? <==> |s| > 0 && IsDigit(s[0])
    ensures r.Some? ==> |r.value.1| < |s| && s == s[..|s| - |r.value.1|] + r.value.1
  {
    var k := DigitRun(s);
    if k == 0 then None
    else
      assert s == s[..k] + s[k..];
      Some((Value(s[..k]), s[k..]))
  }

  /** Reads an optionally negative numeral at the front of `s`. */
  function ParseInt(s: string): (r: Option<(int, string)>)
    ensures r.Some? ==> |r.value.1| < |s|
  {
    if |s| > 0 && s[0] == '-' then
      var p :- ParseNat(s[1..]);
      Some((-(p.0 as int), p.1))
    else
      var p :- ParseNat(s);
      Some((p.0 as int, p.1))
  }

  /** A numeral followed by anything that is not a digit reads back as itself. */
  lemma ParseNatRoundTrip(n: nat, t: string)
    requires t == [] || !IsDigit(t[0])
    ensures ParseNat(NatToString(n) + t) == Some((n, t))
  {
    var a := NatToString(n);
    DigitRunOfNumeral(a, t);
    assert (a + t)[..|a|] == a;
    assert (a + t)[|a|..] == t;
    ValueOfNatToString(n);
  }

  /** A minus sign and a numeral followed by a non-digit read back as the negated number. */
  lemma ParseNegativeRoundTrip(n: nat, t: string)
    requires t == [] || !IsDigit(t[0])
    ensures ParseInt(['-'] + (NatToString(n) + t)) == Some((-(n as int), t))
  {
    var u := ['-'] + (NatToString(n) + t);
    ParseNatRoundTrip(n, t);
    assert u[1..] == NatToString(n) + t;
  }

  /** A signed numeral followed by anything that is not a digit reads back as itself. */
  lemma ParseIntRoundTrip(i: int, t: string)
    requires t == [] || !IsDigit(t[0])
    ensures ParseInt(IntToString(i) + t) == Some((i, t))
  {
    if i < 0 {
      ParseNegativeRoundTrip(-i, t);
      assert IntToString(i) + t == ['-'] + (NatToString(-i) + t);
    } else {
      ParseNatRoundTrip(i, t);
      assert IntToString(i) == NatToString(i);
    }
  }
}

=== FILE: optional.dfy ===
/** A value that may be absent. */
module Optional {

  datatype Option<+T> = None | Some(value: T) {

    /** An absent value stops a chain of `:-` steps. */
    predicate IsFailure() {
      None?
    }

    function PropagateFailure<U>(): Option<U>
      requires None?
    {
      None
    }

    function Extract(): T
      requires Some?
    {
      value
    }
  }

}

=== FILE: summary.dfy ===
/**
 * The five-line text summary of a state (`formatState`): the bucket level
 * and capacity, then the ages of tokens, requests, dropped and processed
 * items, each list in the order the items are held.
 */
module Summary {
  import opened Optional
  import opened Decimal
  import opened TokenBucket

  /** JavaScript's `Array.prototype.join`: the parts with `sep` between neighbours. */
  function Join(parts: seq<string>, sep: string): (r: string)
    ensures |parts| == 0 ==> r == []
    ensures |parts| > 0 ==> |parts[0]| <= |r| && r[..|parts[0]|] == parts[0]
  {
    if |parts| == 0 then []
    else if |parts| == 1 then parts[0]
    else parts[0] + sep + Join(parts[1..], sep)
  }

  /** The ages of the items of one kind, in the order the items are held. */
  function AgesOf(items: seq<Item>, kind: Kind): (r: seq<nat>)
    ensures |r| <= |items|
    ensures forall a :: a in r <==> exists i :: 0 <= i < |items| && items[i].kind == kind && items[i].age == a
  {
    if items == [] then []
    else
      var rest := AgesOf(items[1..], kind);
      assert forall i :: 0 < i < |items| ==> items[i] == items[1..][i - 1];
      if items[0].kind == kind then [items[0].age] + rest else rest
  }

  /** The numeral of each number, in order. */
  function Numerals(xs: seq<nat>): (r: seq<string>)
    ensures |r| == |xs|
    ensures forall i :: 0 <= i < |xs| ==> r[i] == NatToString(xs[i])
  {
    if xs == [] then [] else [NatToString(xs[0])] + Numerals(xs[1..])
  }

  /** A list of ages as printed inside the brackets: numerals separated by ", ". */
  function ListText(xs: seq<nat>): string {
    Join(Numerals(xs), ", ")
  }

  /** The text summary of a state. */
  function FormatState(s: State): string {
    Join([
      "Bucket: " + IntToString(s.bucket.level) + "/" + IntToString(s.bucket.maxLevel) + " tokens",
      "Tokens: [" + ListText(AgesOf(s.items, Token)) + "]",
      "Requests: [" + ListText(AgesOf(s.items, Request)) + "]",
      "Dropped: [" + ListText(AgesOf(s.items, Dropped)) + "]",
      "Processed: [" + ListText(AgesOf(s.items, Processed)) + "]"
    ], "\n")
  }

  /** What the text summary shows of a state. */
  datatype Summary = Summary(
    level: int,
    maxLevel: int,
    tokens: seq<nat>,
    requests: seq<nat>,
    dropped: seq<nat>,
    processed: seq<nat>)

  function SummaryOf(s: State): Summary {
    Summary(s.bucket.level, s.bucket.maxLevel,
      AgesOf(s.items, Token), AgesOf(s.items, Request),
      AgesOf(s.items, Dropped), AgesOf(s.items, Processed))
  }

  // ---------------------------------------------------------------------------
  // Reading a summary back
  // ---------------------------------------------------------------------------

  /** The rest of `s` after the literal `lit`, if `s` starts with it. */
  function Expect(lit: string, s: string): (r: Option<string>)
    ensures r.Some? <==> |lit| <= |s| && s[..|lit|] == lit
    ensures r.Some? ==> s == lit + r.value
  {
    if |lit| <= |s| && s[..|lit|] == lit then
      assert s == s[..|lit|] + s[|lit|..];
      Some(s[|lit|..])
    else None
  }

  /** Reads a non-empty list of numerals separated by ", " and closed by "]". */
  function ParseItems(s: string): (r: Option<(seq<nat>, string)>)
    ensures r.Some? ==> |r.value.1| < |s|
    decreases |s|
  {
    var p :- ParseNat(s);
    var rest := p.1;
    if |rest| > 0 && rest[0] == ']' then Some(([p.0], rest[1..]))
    else
      var more :- Expect(", ", rest);
      var q :- ParseItems(more);
      Some(([p.0] + q.0, q.1))
  }

  /** Reads the body of a bracketed list, up to and including the "]". */
  function ParseList(s: string): (r: Option<(seq<nat>, string)>)
    ensures r.Some? ==> |r.value.1| < |s|
  {
    if |s| > 0 && s[0] == ']' then Some(([], s[1..])) else ParseItems(s)
  }

  /** Reads a line break, the heading of a list line and the bracketed list after it. */
  function ParseListLine(heading: string, s: string): (r: Option<(seq<nat>, string)>)
    ensures r.Some? ==> |r.value.1| < |s|
  {
    var afterBreak :- Expect("\n", s);
    var afterLabel :- Expect(heading, afterBreak);
    ParseList(afterLabel)
  }

  /** Reads the bucket line: level, capacity and the rest of the text. */
  function ParseBucketLine(s: string): (r: Option<(int, int, string)>)
    ensures r.Some? ==> |r.value.2| < |s|
  {
    var t0 :- Expect("Bucket: ", s);
    var level :- ParseInt(t0);
    var t1 :- Expect("/", level.1);
    var maxLevel :- ParseInt(t1);
    var t2 :- Expect(" tokens", maxLevel.1);
    Some((level.0, maxLevel.0, t2))
  }

  /** Reads a text summary; None if the text is not one. */
  function ParseSummary(text: string): Option<Summary> {
    var bucket :- ParseBucketLine(text);
    var tokens :- ParseListLine("Tokens: [", bucket.2);
    var requests :- ParseListLine("Requests: [", tokens.1);
    var dropped :- ParseListLine("Dropped: [", requests.1);
    var processed :- ParseListLine("Processed: [", dropped.1);
    if processed.1 == [] then
      Some(Summary(bucket.0, bucket.1, tokens.0, requests.0, dropped.0, processed.0))
    else None
  }

  // ---------------------------------------------------------------------------
  // Round trip
  // ---------------------------------------------------------------------------

  /** A printed list body followed by "]" reads back as the list. */
  lemma {:induction false} ParseListRoundTrip(xs: seq<nat>, t: string)
    ensures ParseList(ListText(xs) + "]" + t) == Some((xs, t))
  {
    if xs == [] {
      assert ListText(xs) + "]" + t == "]" + t;
    } else {
      ParseItemsRoundTrip(xs, t);
      var u := ListText(xs) + "]" + t;
      assert u[0] == NatToString(xs[0])[0];
    }
  }

  lemma {:induction false} ParseItemsRoundTrip(xs: seq<nat>, t: string)
    requires xs != []
    ensures ParseItems(ListText(xs) + "]" + t) == Some((xs, t))
    decreases |xs|
  {
    if |xs| == 1 {
      ParseLastItem(xs, t);
    } else {
      ParseItemsRoundTrip(xs[1..], t);
      ParseNextItem(xs, t);
    }
  }

  /** The last numeral of a list is followed by the closing bracket. */
  lemma ParseLastItem(xs: seq<nat>, t: string)
    requires |xs| == 1
    ensures ParseItems(ListText(xs) + "]" + t) == Some((xs, t))
  {
    var a := NatToString(xs[0]);
    assert Numerals(xs) == [a];
    assert ListText(xs) + "]" + t == a + ("]" + t);
    ParseNatRoundTrip(xs[0], "]" + t);
    assert ("]" + t)[1..] == t;
    assert [xs[0]] == xs;
  }

  /** A numeral followed by a separator is read before the rest of the list. */
  lemma ParseNextItem(xs: seq<nat>, t: string)
    requires |xs| >= 2
    requires ParseItems(ListText(xs[1..]) + "]" + t) == Some((xs[1..], t))
    ensures ParseItems(ListText(xs) + "]" + t) == Some((xs, t))
  {
    var tail := ListText(xs[1..]) + "]" + t;
    ListTextCons(xs);
    SeparatedThenClosed(NatToString(xs[0]), ListText(xs[1..]), t);
    ParseNumeralThenItems(xs[0], tail, xs[1..], t);
    assert [xs[0]] + xs[1..] == xs;
  }

  lemma SeparatedThenClosed(a: string, b: string, t: string)
    ensures a + ", " + b + "]" + t == a + (", " + (b + "]" + t))
  {
  }

  lemma ParseNumeralThenItems(n: nat, tail: string, ns: seq<nat>, t: string)
    requires ParseItems(tail) == Some((ns, t))
    ensures ParseItems(NatToString(n) + (", " + tail)) == Some(([n] + ns, t))
  {
    var u := NatToString(n) + (", " + tail);
    ParseNatRoundTrip(n, ", " + tail);
    ExpectRoundTrip(", ", tail);
    ParseItemsCons(u, n, ", " + tail, ns, t);
  }

  /** The numerals of a list of two or more numbers: the first, a separator, and the rest. */
  lemma ListTextCons(xs: seq<nat>)
    requires |xs| >= 2
    ensures ListText(xs) == NatToString(xs[0]) + ", " + ListText(xs[1..])
  {
    assert Numerals(xs) == [NatToString(xs[0])] + Numerals(xs[1..]);
    assert Numerals(xs)[1..] == Numerals(xs[1..]);
  }

  /** One step of ParseItems: a numeral, a separator and the items after it. */
  lemma ParseItemsCons(u: string, n: nat, rest: string, ns: seq<nat>, t: string)
    requires ParseNat(u) == Some((n, rest))
    requires |rest| > 0 && rest[0] == ','
    requires Expect(", ", rest).Some?
    requires ParseItems(Expect(", ", rest).value) == Some((ns, t))
    ensures ParseItems(u) == Some(([n] + ns, t))
  {
  }

  /** Five parts joined by a separator, associated to the right. */
  lemma JoinFive(a: string, b: string, c: string, d: string, e: string, sep: string)
    ensures Join([a, b, c, d, e], sep) == a + (sep + (b + (sep + (c + (sep + (d + (sep + e)))))))
  {
    assert [a, b, c, d, e][1..] == [b, c, d, e];
    assert [b, c, d, e][1..] == [c, d, e];
    assert [c, d, e][1..] == [d, e];
    assert [d, e][1..] == [e];
    assert Join([d, e], sep) == d + (sep + e);
    assert Join([c, d, e], sep) == c + (sep + Join([d, e], sep));
    assert Join([b, c, d, e], sep) == b + (sep + Join([c, d, e], sep));
  }

  /** A list line followed by more text, associated to the right. */
  lemma ListLineThen(head: string, body: string, r: string)
    ensures head + body + "]" + r == head + (body + "]" + r)
  {
  }

  /** The bucket line followed by more text, associated to the right. */
  lemma BucketLineThen(level: string, maxLevel: string, r: string)
    ensures "Bucket: " + level + "/" + maxLevel + " tokens" + r
      == "Bucket: " + (level + ("/" + (maxLevel + (" tokens" + r))))
  {
  }

  /** A printed list line reads back as its list. */
  lemma ParseListLineRoundTrip(heading: string, xs: seq<nat>, t: string)
    ensures ParseListLine(heading, "\n" + (heading + (ListText(xs) + "]" + t))) == Some((xs, t))
  {
    ParseListRoundTrip(xs, t);
  }

  /** A literal is consumed from the front of a text that starts with it. */
  lemma ExpectRoundTrip(lit: string, r: string)
    ensures Expect(lit, lit + r) == Some(r)
  {
    assert (lit + r)[..|lit|] == lit;
  }

  /** A printed bucket line reads back as its level and capacity. */
  lemma ParseBucketLineRoundTrip(level: int, maxLevel: int, t: string)
    ensures ParseBucketLine("Bucket: " + (IntToString(level) + ("/" + (IntToString(maxLevel) + (" tokens" + t)))))
      == Some((level, maxLevel, t))
  {
    var t2 := " tokens" + t;
    var t1 := IntToString(maxLevel) + t2;
    var t0 := "/" + t1;
    ExpectRoundTrip("Bucket: ", IntToString(level) + t0);
    ParseIntRoundTrip(level, t0);
    ExpectRoundTrip("/", t1);
    ParseIntRoundTrip(maxLevel, t2);
    ExpectRoundTrip(" tokens", t);
  }

  /** The summary text of a state, associated to the right, line by line. */
  function SpelledOut(sm: Summary): string {
    "Bucket: " + (IntToString(sm.level) + ("/" + (IntToString(sm.maxLevel) + (" tokens" +
    ("\n" + ("Tokens: [" + (ListText(sm.tokens) + "]" +
    ("\n" + ("Requests: [" + (ListText(sm.requests) + "]" +
    ("\n" + ("Dropped: [" + (ListText(sm.dropped) + "]" +
    ("\n" + ("Processed: [" + (ListText(sm.processed) + "]" + ""))))))))))))))))
  }

  lemma FormatStateSpelledOut(s: State)
    ensures FormatState(s) == SpelledOut(SummaryOf(s))
  {
    var sm := SummaryOf(s);
    var t4 := "\n" + ("Processed: [" + (ListText(sm.processed) + "]" + ""));
    var t3 := "\n" + ("Dropped: [" + (ListText(sm.dropped) + "]" + t4));
    var t2 := "\n" + ("Requests: [" + (ListText(sm.requests) + "]" + t3));
    var t1 := "\n" + ("Tokens: [" + (ListText(sm.tokens) + "]" + t2));
    JoinFive(
      "Bucket: " + IntToString(sm.level) + "/" + IntToString(sm.maxLevel) + " tokens",
      "Tokens: [" + ListText(sm.tokens) + "]",
      "Requests: [" + ListText(sm.requests) + "]",
      "Dropped: [" + ListText(sm.dropped) + "]",
      "Processed: [" + ListText(sm.processed) + "]",
      "\n");
    ListLineThen("Processed: [", ListText(sm.processed), "");
    ListLineThen("Dropped: [", ListText(sm.dropped), t4);
    ListLineThen("Requests: [", ListText(sm.requests), t3);
    ListLineThen("Tokens: [", ListText(sm.tokens), t2);
    BucketLineThen(IntToString(sm.level), IntToString(sm.maxLevel), t1);
  }

  /** The right-associated summary text reads back as the summary. */
  lemma ParseSpelledOut(sm: Summary)
    ensures ParseSummary(SpelledOut(sm)) == Some(sm)
  {
    var t4 := "\n" + ("Processed: [" + (ListText(sm.processed) + "]" + ""));
    var t3 := "\n" + ("Dropped: [" + (ListText(sm.dropped) + "]" + t4));
    var t2 := "\n" + ("Requests: [" + (ListText(sm.requests) + "]" + t3));
    var t1 := "\n" + ("Tokens: [" + (ListText(sm.tokens) + "]" + t2));
    ParseBucketLineRoundTrip(sm.level, sm.maxLevel, t1);
    ParseListLineRoundTrip("Tokens: [", sm.tokens, t2);
    ParseListLineRoundTrip("Requests: [", sm.requests, t3);
    ParseListLineRoundTrip("Dropped: [", sm.dropped, t4);
    ParseListLineRoundTrip("Processed: [", sm.processed, "");
  }

  /** Reading the summary of a state gives back exactly what it shows. */
  lemma FormatStateRoundTrip(s: State)
    ensures ParseSummary(FormatState(s)) == Some(SummaryOf(s))
  {
    FormatStateSpelledOut(s);
    ParseSpelledOut(SummaryOf(s));
  }

  // ---------------------------------------------------------------------------
  // How the operations show in the summary
  // ---------------------------------------------------------------------------

  /** The ages of a concatenation are the ages of its parts, in order. */
  lemma {:induction false} AgesOfAppend(a: seq<Item>, b: seq<Item>, kind: Kind)
    ensures AgesOf(a + b, kind) == AgesOf(a, kind) + AgesOf(b, kind)
  {
    if a == [] {
      assert a + b == b;
    } else {
      assert (a + b)[0] == a[0];
      assert (a + b)[1..] == a[1..] + b;
      AgesOfAppend(a[1..], b, kind);
    }
  }

  /** A new token shows as a trailing age 0 in the token list, and nothing else changes. */
  lemma SummaryOfAddToken(s: State)
    ensures SummaryOf(AddToken(s)) == SummaryOf(s).(tokens := SummaryOf(s).tokens + [0])
  {
    var r := AddToken(s);
    assert r.items == s.items + [Item(s.nextId, 0, 0, Token)];
    forall kind: Kind {
      AgesOfAppend(s.items, [Item(s.nextId, 0, 0, Token)], kind);
    }
  }

  /** A new request shows as a trailing age, its drawn head start, in the request list, and nothing else changes. */
  lemma SummaryOfAddRequest(s: State, burstiness: real, draw: nat)
    requires draw < DrawBound(burstiness)
    ensures SummaryOf(AddRequest(s, burstiness, draw)) == SummaryOf(s).(requests := SummaryOf(s).requests + [draw])
  {
    var r := AddRequest(s, burstiness, draw);
    var added := r.items[|s.items|];
    assert r.items == s.items + [added];
    forall kind: Kind {
      AgesOfAppend(s.items, [added], kind);
    }
  }

  /** Resizing the bucket changes only the bucket line. */
  lemma SummaryOfSetBucketSize(s: State, newSize: int)
    ensures var sm := SummaryOf(SetBucketSize(s, newSize));
      sm == SummaryOf(s).(level := sm.level, maxLevel := newSize)
      && sm.level == Min(s.bucket.level, newSize)
  {
  }

  /** The numerals the formatting unit test prints. */
  lemma NumeralExamples()
    ensures IntToString(5) == "5" && IntToString(10) == "10"
    ensures ListText([15]) == "15" && ListText([30]) == "30"
    ensures ListText([180]) == "180" && ListText([150]) == "150"
  {
    assert NatToString(15) == NatToString(1) + [DigitChar(5)];
    assert NatToString(180) == NatToString(18) + [DigitChar(0)];
    assert NatToString(150) == NatToString(15) + [DigitChar(0)];
  }

  /** The numerals of the formatting unit test in place. */
  lemma SpelledOutFilled()
    ensures SpelledOut(Summary(5, 10, [15], [30], [180], [150])) ==
      "Bucket: " + ("5" + ("/" + ("10" + (" tokens" +
      ("\n" + ("Tokens: [" + ("15" + "]" +
      ("\n" + ("Requests: [" + ("30" + "]" +
      ("\n" + ("Dropped: [" + ("180" + "]" +
      ("\n" + ("Processed: [" + ("150" + "]" + ""))))))))))))))))
  {
    NumeralExamples();
  }

  /** A list line written out as one literal, followed by more text. */
  lemma ListLineLiteral(heading: string, numeral: string, line: string, r: string)
    requires "\n" + heading + numeral + "]" == line
    ensures "\n" + (heading + (numeral + "]" + r)) == line + r
  {
  }

  /** The text of the formatting unit test, assembled line by line. */
  lemma SpelledOutExample()
    ensures "Bucket: " + ("5" + ("/" + ("10" + (" tokens" +
      ("\n" + ("Tokens: [" + ("15" + "]" +
      ("\n" + ("Requests: [" + ("30" + "]" +
      ("\n" + ("Dropped: [" + ("180" + "]" +
      ("\n" + ("Processed: [" + ("150" + "]" + ""))))))))))))))))
      == "Bucket: 5/10 tokens" + ("\nTokens: [15]" + ("\nRequests: [30]" + ("\nDropped: [180]" + "\nProcessed: [150]")))
  {
    var t4 := "\nProcessed: [150]";
    var t3 := "\nDropped: [180]" + t4;
    var t2 := "\nRequests: [30]" + t3;
    var t1 := "\nTokens: [15]" + t2;
    ListLineLiteral("Processed: [", "150", t4, "");
    assert t4 + "" == t4;
    ListLineLiteral("Dropped: [", "180", "\nDropped: [180]", t4);
    ListLineLiteral("Requests: [", "30", "\nRequests: [30]", t3);
    ListLineLiteral("Tokens: [", "15", "\nTokens: [15]", t2);
    BucketLineLiteral(t1);
  }

  /** The bucket line of the formatting unit test, followed by more text. */
  lemma BucketLineLiteral(r: string)
    ensures "Bucket: " + ("5" + ("/" + ("10" + (" tokens" + r)))) == "Bucket: 5/10 tokens" + r
  {
    assert "Bucket: " + "5" + "/" + "10" + " tokens" == "Bucket: 5/10 tokens";
  }

  /** The summary of the state built in the formatting unit test. */
  lemma FormatStateExample()
    ensures var s0 := CreateInitialState(10, 0.0, 60, 0.0, 0.0);
      var s := s0.(bucket := Bucket(5, 10), items := [
        Item(1, 15, 0, Token), Item(2, 30, 0, Request),
        Item(3, 150, 0, Processed), Item(4, 180, 0, Dropped)]);
      FormatState(s) == "Bucket: 5/10 tokens" + ("\nTokens: [15]" + ("\nRequests: [30]" + ("\nDropped: [180]" + "\nProcessed: [150]")))
  {
    var s0 := CreateInitialState(10, 0.0, 60, 0.0, 0.0);
    var s := s0.(bucket := Bucket(5, 10), items := [
      Item(1, 15, 0, Token), Item(2, 30, 0, Request),
      Item(3, 150, 0, Processed), Item(4, 180, 0, Dropped)]);
    assert SummaryOf(s) == Summary(5, 10, [15], [30], [180], [150]);
    FormatStateSpelledOut(s);
    SpelledOutFilled();
    SpelledOutExample();
  }
}

=== FILE: token_bucket.dfy ===
/**
 * The discrete-time token-bucket simulation engine.
 *
 * Items (tokens and requests) travel towards a bucket for a fixed number of
 * frames. A token that arrives fills the bucket if there is room; a request
 * that arrives takes a token (processed) or is rejected (dropped). Resolved
 * requests linger for a fixed lifetime and are then removed. Every operation
 * is a pure function from one state snapshot to the next.
 */
module TokenBucket {
  import opened Optional

  /** Frames an item needs to travel from its source to the bucket. */
  const ArrivalFrames: nat := 120
  /** Frames a processed request stays in the active set after it was admitted. */
  const ProcessedLifetime: nat := 120
  /** Frames a dropped request stays in the active set after it was rejected. */
  const DroppedLifetime: nat := 120

  datatype Kind = Request | Token | Processed | Dropped {
    /** Still travelling towards the bucket. */
    predicate InFlight() {
      this == Request || this == Token
    }
  }

  datatype Item = Item(id: nat, age: nat, position: int, kind: Kind)

  datatype Bucket = Bucket(level: int, maxLevel: int)

  /** A frame countdown. `Never` is the countdown a zero rate produces: it never reaches zero. */
  datatype Ticks = Frames(n: nat) | Never

  /**
   * One snapshot of the simulation. The configured rates appear as the
   * periods they induce: `tokenPeriod` is floor(framesPerSecond / tokensPerSecond)
   * (`Never` for a zero rate) and `requestPeriod` is floor(framesPerSecond /
   * requestsPerSecond) when automatic requests are enabled (a positive rate).
   */
  datatype State = State(
    bucket: Bucket,
    items: seq<Item>,
    nextId: nat,
    frameCount: nat,
    tokenPeriod: Ticks,
    framesUntilNextToken: Ticks,
    requestPeriod: Option<nat>,
    requestBurstiness: real,
    framesUntilNextRequest: nat)

  function Min(a: int, b: int): int {
    if a <= b then a else b
  }

  // ---------------------------------------------------------------------------
  // Construction
  // ---------------------------------------------------------------------------

  /** Whole frames between two events at `perSecond` events per second. */
  function FramesBetween(framesPerSecond: nat, perSecond: real): (n: nat)
    requires perSecond > 0.0
    ensures n as real <= framesPerSecond as real / perSecond < n as real + 1.0
  {
    var q := framesPerSecond as real / perSecond;
    assert q >= 0.0;
    q.Floor
  }

  /** The token period a rate induces; a zero rate gives an endless countdown. */
  function TokenPeriodFor(framesPerSecond: nat, tokensPerSecond: real): Ticks
    requires tokensPerSecond >= 0.0
  {
    if tokensPerSecond == 0.0 then Never else Frames(FramesBetween(framesPerSecond, tokensPerSecond))
  }

  /** The request period a rate induces; automatic requests are off unless the rate is positive. */
  function RequestPeriodFor(framesPerSecond: nat, requestsPerSecond: real): Option<nat> {
    if requestsPerSecond > 0.0 then Some(FramesBetween(framesPerSecond, requestsPerSecond)) else None
  }

  function CreateInitialState(
    maxLevel: int,
    tokensPerSecond: real,
    framesPerSecond: nat,
    requestsPerSecond: real,
    requestBurstiness: real): (r: State)
    requires tokensPerSecond >= 0.0
    ensures r.bucket.level == maxLevel && r.bucket.maxLevel == maxLevel
    ensures r.items == [] && r.nextId == 1 && r.frameCount == 0
    ensures r.framesUntilNextToken == r.tokenPeriod
    ensures r.tokenPeriod == Never <==> tokensPerSecond == 0.0
    ensures r.tokenPeriod.Frames? ==>
      r.tokenPeriod.n as real <= framesPerSecond as real / tokensPerSecond < r.tokenPeriod.n as real + 1.0
    ensures r.requestPeriod.Some? <==> requestsPerSecond > 0.0
    ensures r.requestPeriod.Some? ==>
      && r.framesUntilNextRequest == r.requestPeriod.value
      && r.requestPeriod.value as real <= framesPerSecond as real / requestsPerSecond < r.requestPeriod.value as real + 1.0
    ensures r.requestPeriod.None? ==> r.framesUntilNextRequest == 0
    ensures r.requestBurstiness == requestBurstiness
    ensures maxLevel >= 0 ==> Valid(r)
  {
    var tokenPeriod := TokenPeriodFor(framesPerSecond, tokensPerSecond);
    var requestPeriod := RequestPeriodFor(framesPerSecond, requestsPerSecond);
    State(
      Bucket(maxLevel, maxLevel),
      [],
      1,
      0,
      tokenPeriod,
      tokenPeriod,
      requestPeriod,
      requestBurstiness,
      if requestPeriod.Some? then requestPeriod.value else 0)
  }

  // ---------------------------------------------------------------------------
  // Item injection and reconfiguration
  // ---------------------------------------------------------------------------

  /** floor(burstiness * ArrivalFrames / 2): the spread of initial ages of bursty requests. */
  function MaxOffset(burstiness: real): int {
    ((burstiness * ArrivalFrames as real) / 2.0).Floor
  }

  /**
   * How many initial ages a new request can receive: the random draw
   * floor(u * MaxOffset) for u in [0, 1) ranges over [0, MaxOffset), and the
   * age is 0 when the burstiness is not positive or the spread is empty.
   */
  function DrawBound(burstiness: real): (n: nat)
    ensures n >= 1
  {
    if burstiness > 0.0 && MaxOffset(burstiness) > 1 then MaxOffset(burstiness) else 1
  }

  /**
   * Appends a request whose initial age is `draw`, the value the random source
   * produced; its position is the share of the arrival window that age covers.
   */
  function AddRequest(s: State, burstiness: real, draw: nat): (r: State)
    requires draw < DrawBound(burstiness)
    ensures |r.items| == |s.items| + 1 && r.items[..|s.items|] == s.items
    ensures var it := r.items[|s.items|];
      && it.id == s.nextId && it.age == draw && it.kind == Request
      && it.position * ArrivalFrames <= draw * 100 < (it.position + 1) * ArrivalFrames
    ensures burstiness <= 0.0 ==> r.items[|s.items|].age == 0 && r.items[|s.items|].position == 0
    ensures r.nextId == s.nextId + 1
    ensures s.requestPeriod.Some? ==> r.framesUntilNextRequest == s.requestPeriod.value
    ensures s.requestPeriod.None? ==> r.framesUntilNextRequest == s.framesUntilNextRequest
    ensures r == s.(items := r.items, nextId := r.nextId, framesUntilNextRequest := r.framesUntilNextRequest)
    ensures Valid(s) ==> Valid(r)
  {
    var item := Item(s.nextId, draw, draw * 100 / ArrivalFrames, Request);
    s.(
      items := s.items + [item],
      nextId := s.nextId + 1,
      framesUntilNextRequest :=
        if s.requestPeriod.Some? then s.requestPeriod.value else s.framesUntilNextRequest)
  }

  /** Appends a fresh token and restarts the token countdown. */
  function AddToken(s: State): (r: State)
    ensures |r.items| == |s.items| + 1 && r.items[..|s.items|] == s.items
    ensures r.items[|s.items|] == Item(s.nextId, 0, 0, Token)
    ensures r.nextId == s.nextId + 1
    ensures r.framesUntilNextToken == s.tokenPeriod
    ensures r == s.(items := r.items, nextId := r.nextId, framesUntilNextToken := r.framesUntilNextToken)
    ensures Valid(s) ==> Valid(r)
  {
    s.(
      items := s.items + [Item(s.nextId, 0, 0, Token)],
      nextId := s.nextId + 1,
      framesUntilNextToken := s.tokenPeriod)
  }

  /** Changes the capacity, lowering the level if it no longer fits. */
  function SetBucketSize(s: State, newSize: int): (r: State)
    ensures r.bucket.maxLevel == newSize
    ensures r.bucket.level <= s.bucket.level && r.bucket.level <= newSize
    ensures r.bucket.level == s.bucket.level || r.bucket.level == newSize
    ensures r == s.(bucket := r.bucket)
    ensures Valid(s) && newSize >= 0 ==> Valid(r)
  {
    s.(bucket := Bucket(Min(s.bucket.level, newSize), newSize))
  }

  // ---------------------------------------------------------------------------
  // Positions and the life cycle of one item
  // ---------------------------------------------------------------------------

  /** floor(age * 100 / ArrivalFrames), capped at 100: how far a travelling item has come. */
  function ApproachPosition(age: nat): (p: int)
    ensures 0 <= p <= 100
    ensures p == 100 <==> age >= ArrivalFrames
    ensures p < 100 ==> p * ArrivalFrames <= age * 100 < (p + 1) * ArrivalFrames
  {
    Min(100, age * 100 / ArrivalFrames)
  }

  /** 100 plus the share of its lifetime a resolved item has lived, capped at 200. */
  function DepartPosition(age: nat): (p: int)
    ensures age >= ArrivalFrames ==> 100 <= p <= 200
    ensures age >= ArrivalFrames ==> (p == 200 <==> age >= ArrivalFrames + ProcessedLifetime)
    ensures ArrivalFrames <= age < ArrivalFrames + ProcessedLifetime ==>
      (p - 100) * ProcessedLifetime <= (age - ArrivalFrames) * 100 < (p - 99) * ProcessedLifetime
  {
    Min(200, 100 + (age as int - ArrivalFrames as int) * 100 / ProcessedLifetime)
  }

  /** The item reaches the bucket during its next step. */
  predicate Arrives(it: Item) {
    it.kind.InFlight() && it.age + 1 >= ArrivalFrames
  }

  /**
   * The item is still in the active set after its next step: a token until it
   * arrives, anything else until its age passes the arrival window plus the
   * lifetime of a resolved request (both lifetimes are equal, so the verdict
   * given to a request does not matter).
   */
  predicate Survives(it: Item) {
    match it.kind
    case Token => it.age + 1 < ArrivalFrames
    case Dropped => it.age + 1 <= ArrivalFrames + DroppedLifetime
    case _ => it.age + 1 <= ArrivalFrames + ProcessedLifetime
  }

  /** Kinds only move forward: a request may be resolved, nothing else changes kind. */
  predicate KindStep(before: Kind, after: Kind) {
    before == after || (before == Request && (after == Processed || after == Dropped))
  }

  /** `after` is `before` one frame older, with the same id and a kind it may move to. */
  predicate Advanced(before: Item, after: Item) {
    after.id == before.id && after.age == before.age + 1 && KindStep(before.kind, after.kind)
  }

  /**
   * The position agrees with the age: a travelling item sits at the share of
   * the arrival window it has covered; a resolved item has lived out no more
   * than its lifetime and sits between the bucket (100) and the exit (200).
   */
  predicate Consistent(it: Item) {
    if it.kind.InFlight() then
      it.position == it.age * 100 / ArrivalFrames
    else
      && ArrivalFrames <= it.age <= ArrivalFrames + ProcessedLifetime
      && 100 <= it.position <= 200
  }

  datatype Stepped = Stepped(kept: Option<Item>, level: int)

  /** Removes a resolved item whose age has passed its window; keeps anything else. */
  function RetireIfExpired(it: Item, level: int): Stepped {
    if (it.kind == Processed && it.age > ArrivalFrames + ProcessedLifetime)
      || (it.kind == Dropped && it.age > ArrivalFrames + DroppedLifetime)
    then Stepped(None, level)
    else Stepped(Some(it), level)
  }

  /**
   * One item's step within the frame's pass, given the bucket level
   * accumulated so far: age it, move it, resolve it if it has just reached the
   * bucket, and retire it if its lifetime is over.
   */
  function Step(it: Item, level: int, maxLevel: int): (r: Stepped)
    ensures r.kept.Some? <==> Survives(it)
    ensures r.kept.Some? ==> Advanced(it, r.kept.value)
    ensures !Arrives(it) ==> r.level == level && (r.kept.Some? ==> r.kept.value.kind == it.kind)
    ensures Arrives(it) && it.kind == Token ==>
      r.level == (if level < maxLevel then level + 1 else level)
    ensures Arrives(it) && it.kind == Request ==>
      && r.level == (if level > 0 then level - 1 else level)
      && (r.kept.Some? ==> (r.kept.value.kind == Processed <==> level > 0))
    ensures r.kept.Some? && r.kept.value.kind.InFlight() ==>
      r.kept.value.position < 100 && r.kept.value.position == ApproachPosition(r.kept.value.age)
    ensures r.kept.Some? && !r.kept.value.kind.InFlight() && (it.kind.InFlight() ==> it.age < ArrivalFrames) ==>
      r.kept.value.position == DepartPosition(r.kept.value.age)
    ensures Consistent(it) && r.kept.Some? ==> Consistent(r.kept.value)
  {
    var aged := it.(age := it.age + 1);
    var moved := aged.(position :=
      if it.kind.InFlight() then ApproachPosition(aged.age) else DepartPosition(aged.age));
    if moved.position == 100 && moved.kind.InFlight() then
      assert it.age < ArrivalFrames ==> aged.age == ArrivalFrames && DepartPosition(aged.age) == 100;
      if moved.kind == Token then
        Stepped(None, if level < maxLevel then level + 1 else level)
      else if level > 0 then
        RetireIfExpired(moved.(kind := Processed), level - 1)
      else
        RetireIfExpired(moved.(kind := Dropped), level)
    else
      RetireIfExpired(moved, level)
  }

  // ---------------------------------------------------------------------------
  // The pass over all items
  // ---------------------------------------------------------------------------

  /**
   * `out` is obtained from `items` by removing some items and advancing each
   * of the others by one frame, keeping their relative order.
   */
  predicate SelectionOf(out: seq<Item>, items: seq<Item>)
    decreases |items|
  {
    if |out| == 0 then true
    else if |items| == 0 then false
    else (Advanced(items[0], out[0]) && SelectionOf(out[1..], items[1..])) || SelectionOf(out, items[1..])
  }

  predicate AllConsistent(items: seq<Item>) {
    forall i :: 0 <= i < |items| ==> Consistent(items[i])
  }

  datatype Swept = Swept(items: seq<Item>, level: int)

  /**
   * Steps every item in order, threading one bucket level through the whole
   * pass: each arrival is resolved against the level left by the items before
   * it, not against the level the frame started with.
   */
  function AdvanceItems(items: seq<Item>, level: int, maxLevel: int): (r: Swept)
    ensures SelectionOf(r.items, items)
    ensures |r.items| <= |items|
    ensures 0 <= level <= maxLevel ==> 0 <= r.level <= maxLevel
    ensures AllConsistent(items) ==> AllConsistent(r.items)
    ensures forall k :: 0 <= k < |r.items| && r.items[k].kind.InFlight() ==> r.items[k].position < 100
    ensures (forall i :: 0 <= i < |items| ==> !Arrives(items[i])) ==> r.level == level
    ensures |items| > 0 && Survives(items[0]) ==>
      |r.items| > 0 && r.items[0] == Step(items[0], level, maxLevel).kept.value
    decreases |items|
  {
    if |items| == 0 then Swept([], level)
    else
      var first := Step(items[0], level, maxLevel);
      var rest := AdvanceItems(items[1..], first.level, maxLevel);
      match first.kept
      case Some(it) => Swept([it] + rest.items, rest.level)
      case None => rest
  }

  // ---------------------------------------------------------------------------
  // The frame
  // ---------------------------------------------------------------------------

  /** A countdown one frame later, floored at zero. */
  function CountDown(t: Ticks): Ticks {
    match t
    case Frames(n) => Frames(if n == 0 then 0 else n - 1)
    case Never => Never
  }

  /** The first part of every frame: count the frame and run both countdowns. */
  function StartFrame(s: State): (r: State)
    ensures r.frameCount == s.frameCount + 1
    ensures r.framesUntilNextToken.Never? <==> s.framesUntilNextToken.Never?
    ensures s.framesUntilNextToken.Frames? ==>
      r.framesUntilNextToken.n == (if s.framesUntilNextToken.n > 0 then s.framesUntilNextToken.n - 1 else 0)
    ensures s.requestPeriod.Some? ==>
      r.framesUntilNextRequest == (if s.framesUntilNextRequest > 0 then s.framesUntilNextRequest - 1 else 0)
    ensures s.requestPeriod.None? ==> r.framesUntilNextRequest == s.framesUntilNextRequest
    ensures r == s.(frameCount := r.frameCount, framesUntilNextToken := r.framesUntilNextToken,
                    framesUntilNextRequest := r.framesUntilNextRequest)
  {
    s.(
      frameCount := s.frameCount + 1,
      framesUntilNextToken := CountDown(s.framesUntilNextToken),
      framesUntilNextRequest :=
        if s.requestPeriod.Some? then
          (if s.framesUntilNextRequest == 0 then 0 else s.framesUntilNextRequest - 1)
        else s.framesUntilNextRequest)
  }

  /** The last part of a frame in which nothing was injected: the pass over the items. */
  function FinishFrame(s: State): (r: State)
    ensures r == s.(bucket := s.bucket.(level := r.bucket.level), items := r.items)
    ensures SelectionOf(r.items, s.items)
    ensures Valid(s) ==> Valid(r)
  {
    var swept := AdvanceItems(s.items, s.bucket.level, s.bucket.maxLevel);
    SelectionKeepsIds(swept.items, s.items, -1, s.nextId);
    s.(bucket := s.bucket.(level := swept.level), items := swept.items)
  }

  /** A token becomes due during this frame. */
  predicate TokenDue(s: State) {
    s.framesUntilNextToken.Frames? && s.framesUntilNextToken.n <= 1
  }

  /**
   * Periods under which a frame's cascade of injections ends with at most one
   * automatic request. A token period of 0 or 1, or a request period of 0 or
   * 1, makes the source recurse forever. A request period of 2 is admitted
   * only while tokens are off.
   */
  predicate ValidPeriods(s: State) {
    && (s.tokenPeriod == Never || s.tokenPeriod.n >= 2)
    && (|| s.requestPeriod.None?
        || s.requestPeriod.value >= 3
        || (s.requestPeriod.value == 2 && s.tokenPeriod == Never && s.framesUntilNextToken == Never))
  }

  /**
   * The request countdown cannot reach zero again in the rest of this frame:
   * it is off, or far enough from zero that at most one token injection can
   * come first.
   */
  predicate RequestSettled(s: State) {
    || s.requestPeriod.None?
    || s.framesUntilNextRequest >= 3
    || (s.framesUntilNextRequest == 2 && !TokenDue(s))
  }

  /**
   * The random initial age for a request injected in this frame. Once it has
   * been used the recursive call receives `None`, which is only allowed when
   * no second request can become due.
   */
  predicate DrawFits(s: State, draw: Option<nat>) {
    match draw
    case Some(d) => d < DrawBound(s.requestBurstiness)
    case None => RequestSettled(s)
  }

  /**
   * Termination measure of the cascade: a due token weighs 4, a token due
   * one frame later 1; a due request weighs 4, a request due one frame later
   * 2. Each injection lowers the sum.
   */
  function CascadeWeight(s: State): nat {
    var tokenWeight :=
      if !s.framesUntilNextToken.Frames? then 0
      else if s.framesUntilNextToken.n <= 1 then 4
      else if s.framesUntilNextToken.n == 2 then 1
      else 0;
    var requestWeight :=
      if s.requestPeriod.None? then 0
      else if s.framesUntilNextRequest <= 1 then 4
      else if s.framesUntilNextRequest == 2 then 2
      else 0;
    tokenWeight + requestWeight
  }

  /**
   * Advances the simulation by one frame. When a token (or else an automatic
   * request) becomes due, it is injected and the whole frame is run again on
   * the result, so such a frame counts more than once and runs the countdowns
   * again; otherwise every item takes one step.
   */
  function UpdateState(s: State, draw: Option<nat>): (r: State)
    requires ValidPeriods(s)
    requires DrawFits(s, draw)
    ensures r.nextId >= s.nextId
    ensures r.frameCount == s.frameCount + 1 + (r.nextId - s.nextId)
    ensures r.bucket.maxLevel == s.bucket.maxLevel
    ensures r.tokenPeriod == s.tokenPeriod && r.requestPeriod == s.requestPeriod
    ensures r.requestBurstiness == s.requestBurstiness
    ensures r.framesUntilNextToken != Frames(0)
    ensures s.framesUntilNextToken == Never ==> r.framesUntilNextToken == Never
    ensures ValidPeriods(r)
    ensures r.requestPeriod.Some? ==> r.framesUntilNextRequest != 0
    ensures Valid(s) ==> Valid(r)
    decreases CascadeWeight(s)
  {
    var t := StartFrame(s);
    if t.framesUntilNextToken == Frames(0) then
      UpdateState(AddToken(t), draw)
    else if t.requestPeriod.Some? && t.framesUntilNextRequest == 0 then
      UpdateState(AddRequest(t, t.requestBurstiness, draw.value), None)
    else
      FinishFrame(t)
  }

  // ---------------------------------------------------------------------------
  // The state invariant
  // ---------------------------------------------------------------------------

  /** Ids strictly increase along the sequence and lie strictly between `lo` and `hi`. */
  predicate IdsWithin(items: seq<Item>, lo: int, hi: int) {
    && (forall i, j :: 0 <= i < j < |items| ==> items[i].id < items[j].id)
    && (forall i :: 0 <= i < |items| ==> lo < items[i].id < hi)
  }

  /**
   * The invariant of every reachable state: the level is within the capacity,
   * items are in creation order with ids below `nextId`, and every position
   * agrees with its item's age.
   */
  predicate Valid(s: State) {
    && 0 <= s.bucket.level <= s.bucket.maxLevel
    && IdsWithin(s.items, -1, s.nextId)
    && AllConsistent(s.items)
  }

  /** A selection keeps the items' order and draws its ids from the original ones. */
  lemma {:induction false} SelectionKeepsIds(out: seq<Item>, items: seq<Item>, lo: int, hi: int)
    requires SelectionOf(out, items)
    ensures IdsWithin(items, lo, hi) ==> IdsWithin(out, lo, hi)
    decreases |items|
  {
    if |out| == 0 || !IdsWithin(items, lo, hi) {
    } else if Advanced(items[0], out[0]) && SelectionOf(out[1..], items[1..]) {
      SelectionKeepsIds(out[1..], items[1..], items[0].id, hi);
      forall i, j | 0 <= i < j < |out|
        ensures out[i].id < out[j].id
      {
        if i > 0 {
          assert out[i] == out[1..][i - 1] && out[j] == out[1..][j - 1];
        } else {
          assert out[j] == out[1..][j - 1];
        }
      }
      forall i | 0 <= i < |out|
        ensures lo < out[i].id < hi
      {
        if i > 0 {
          assert out[i] == out[1..][i - 1];
        }
      }
    } else {
      SelectionKeepsIds(out, items[1..], lo, hi);
    }
  }
}

=== FILE: token_bucket_proofs.dfy ===
/**
 * Properties of the simulation that relate several operations or several
 * frames: reconfiguration, the shared bucket level of a pass, the lifetime of
 * resolved requests, the shape of a frame, and the scenarios the unit tests
 * describe.
 */
module TokenBucketProofs {
  import opened Optional
  import opened TokenBucket

  // ---------------------------------------------------------------------------
  // Reconfiguration
  // ---------------------------------------------------------------------------

  /** Setting the same capacity twice is the same as setting it once. */
  lemma SetBucketSizeIdempotent(s: State, newSize: int)
    ensures SetBucketSize(SetBucketSize(s, newSize), newSize) == SetBucketSize(s, newSize)
  {
  }

  /** Shrinking the bucket and then growing it back does not restore the tokens it lost. */
  lemma ShrinkThenGrowLosesTokens(s: State, small: int)
    requires 0 <= small < s.bucket.level <= s.bucket.maxLevel
    ensures SetBucketSize(SetBucketSize(s, small), s.bucket.maxLevel).bucket
      == Bucket(small, s.bucket.maxLevel)
  {
  }

  // ---------------------------------------------------------------------------
  // The pass over the items
  // ---------------------------------------------------------------------------

  function Ids(items: seq<Item>): (r: seq<nat>)
    ensures |r| == |items|
    ensures forall i :: 0 <= i < |items| ==> r[i] == items[i].id
  {
    if |items| == 0 then [] else [items[0].id] + Ids(items[1..])
  }

  /** The items that are still active after one more step. */
  function Survivors(items: seq<Item>): (r: seq<Item>)
    ensures forall k :: 0 <= k < |r| ==> Survives(r[k])
  {
    if |items| == 0 then []
    else if Survives(items[0]) then [items[0]] + Survivors(items[1..])
    else Survivors(items[1..])
  }

  /**
   * Which items leave the active set does not depend on the bucket: exactly
   * the items that survive their step remain, in their original order.
   */
  lemma {:induction false} PassKeepsExactlySurvivors(items: seq<Item>, level: int, maxLevel: int)
    ensures Ids(AdvanceItems(items, level, maxLevel).items) == Ids(Survivors(items))
    decreases |items|
  {
    if |items| > 0 {
      var first := Step(items[0], level, maxLevel);
      PassKeepsExactlySurvivors(items[1..], first.level, maxLevel);
    }
  }

  /** Passing over `a + b` is passing over `a` and then over `b` from the level `a` left. */
  lemma {:induction false} AdvanceAppend(a: seq<Item>, b: seq<Item>, level: int, maxLevel: int)
    ensures var left := AdvanceItems(a, level, maxLevel);
            var right := AdvanceItems(b, left.level, maxLevel);
            AdvanceItems(a + b, level, maxLevel) == Swept(left.items + right.items, right.level)
    decreases |a|
  {
    if |a| == 0 {
      assert a + b == b;
    } else {
      assert (a + b)[0] == a[0];
      assert (a + b)[1..] == a[1..] + b;
      AdvanceAppend(a[1..], b, Step(a[0], level, maxLevel).level, maxLevel);
      var first := Step(a[0], level, maxLevel);
      var left' := AdvanceItems(a[1..], first.level, maxLevel);
      var right := AdvanceItems(b, left'.level, maxLevel);
      match first.kept
      case Some(it) =>
        assert [it] + (left'.items + right.items) == ([it] + left'.items) + right.items;
      case None =>
    }
  }

  /** Number of items of the given kind that reach the bucket in their next step. */
  function Arrivals(items: seq<Item>, kind: Kind): nat {
    if |items| == 0 then 0
    else (if Arrives(items[0]) && items[0].kind == kind then 1 else 0) + Arrivals(items[1..], kind)
  }

  function CountKind(items: seq<Item>, kind: Kind): nat {
    if |items| == 0 then 0
    else (if items[0].kind == kind then 1 else 0) + CountKind(items[1..], kind)
  }

  /**
   * The level a pass leaves is within the capacity, no lower than the start
   * minus the arriving requests and no higher than the start plus the
   * arriving tokens.
   */
  lemma {:induction false} PassLevelBounds(items: seq<Item>, level: int, maxLevel: int)
    requires 0 <= level <= maxLevel
    ensures var r := AdvanceItems(items, level, maxLevel);
      && 0 <= r.level <= maxLevel
      && level - Arrivals(items, Request) <= r.level <= level + Arrivals(items, Token)
    decreases |items|
  {
    if |items| > 0 {
      PassLevelBounds(items[1..], Step(items[0], level, maxLevel).level, maxLevel);
    }
  }

  /** Tokens arriving at a full bucket are wasted: without arriving requests it stays full. */
  lemma FullBucketStaysFull(items: seq<Item>, maxLevel: int)
    requires 0 <= maxLevel
    requires Arrivals(items, Request) == 0
    ensures AdvanceItems(items, maxLevel, maxLevel).level == maxLevel
  {
    PassLevelBounds(items, maxLevel, maxLevel);
  }

  /**
   * With an empty bucket and no arriving token, every arriving request is
   * dropped: no item becomes processed (expired ones may leave) and the
   * bucket stays empty.
   */
  lemma {:induction false} EmptyBucketDropsArrivals(items: seq<Item>, maxLevel: int)
    requires Arrivals(items, Token) == 0
    ensures var r := AdvanceItems(items, 0, maxLevel);
      r.level == 0 && CountKind(r.items, Processed) <= CountKind(items, Processed)
    decreases |items|
  {
    if |items| > 0 {
      var first := Step(items[0], 0, maxLevel);
      assert first.level == 0;
      EmptyBucketDropsArrivals(items[1..], maxLevel);
      var rest := AdvanceItems(items[1..], 0, maxLevel);
      if first.kept.Some? {
        var out := [first.kept.value] + rest.items;
        assert AdvanceItems(items, 0, maxLevel) == Swept(out, rest.level);
        assert first.kept.value.kind == Processed <==> items[0].kind == Processed;
        assert out[0] == first.kept.value && out[1..] == rest.items;
        assert CountKind(out, Processed) == (if out[0].kind == Processed then 1 else 0) + CountKind(rest.items, Processed);
      }
    }
  }

  /** Two requests arriving together with one token left: the first is admitted, the second dropped. */
  lemma SharedLevelAdmitsInOrder()
    ensures AdvanceItems([Item(1, 119, 99, Request), Item(2, 119, 99, Request)], 1, 10)
      == Swept([Item(1, 120, 100, Processed), Item(2, 120, 100, Dropped)], 0)
  {
  }

  /** A token arriving ahead of a request in the same pass is available to that request. */
  lemma TokenAheadServesRequest()
    ensures AdvanceItems([Item(1, 119, 99, Token), Item(2, 119, 99, Request)], 0, 10)
      == Swept([Item(2, 120, 100, Processed)], 0)
  {
  }

  /** A token arriving behind a request in the same pass comes too late for it. */
  lemma TokenBehindComesTooLate()
    ensures AdvanceItems([Item(1, 119, 99, Request), Item(2, 119, 99, Token)], 0, 10)
      == Swept([Item(1, 120, 100, Dropped)], 1)
  {
  }

  // ---------------------------------------------------------------------------
  // Lifetime of a resolved request
  // ---------------------------------------------------------------------------

  /** The item after `n` more steps, or None once it has left the active set. */
  function Linger(it: Item, n: nat): Option<Item>
    decreases n
  {
    if n == 0 then Some(it)
    else match Step(it, 0, 0).kept
      case None => None
      case Some(next) => Linger(next, n - 1)
  }

  /**
   * A resolved item stays exactly until its age exceeds the arrival window
   * plus its lifetime, keeping its kind.
   */
  lemma {:induction false} ResolvedLingers(it: Item, n: nat)
    requires it.kind == Processed || it.kind == Dropped
    requires it.age <= ArrivalFrames + ProcessedLifetime
    ensures Linger(it, n).Some? <==> it.age + n <= ArrivalFrames + ProcessedLifetime
    ensures Linger(it, n).Some? ==> Linger(it, n).value.kind == it.kind
    decreases n
  {
    if n > 0 {
      var step := Step(it, 0, 0);
      assert !Arrives(it);
      if step.kept.Some? {
        assert step.kept.value.kind == it.kind && step.kept.value.age == it.age + 1;
        ResolvedLingers(step.kept.value, n - 1);
        assert Linger(it, n) == Linger(step.kept.value, n - 1);
      } else {
        assert Linger(it, n) == None;
      }
    }
  }

  /**
   * A request resolved in this frame (age 120) is still present for the next
   * 120 frames and gone in the 121st.
   */
  lemma ResolvedRemovedAfterLifetime(it: Item)
    requires it.kind == Processed || it.kind == Dropped
    requires it.age == ArrivalFrames
    ensures Linger(it, ProcessedLifetime).Some?
    ensures Linger(it, ProcessedLifetime + 1).None?
  {
    ResolvedLingers(it, ProcessedLifetime);
    ResolvedLingers(it, ProcessedLifetime + 1);
  }

  // ---------------------------------------------------------------------------
  // The shape of a frame
  // ---------------------------------------------------------------------------

  /**
   * The items that existed before the frame are stepped exactly once, from the
   * level the frame started with; items injected during the frame come after
   * them. When nothing is injected, the frame is just that pass.
   */
  lemma {:induction false} OldItemsSettleFirst(s: State, draw: Option<nat>)
    requires ValidPeriods(s)
    requires DrawFits(s, draw)
    ensures var p := AdvanceItems(s.items, s.bucket.level, s.bucket.maxLevel);
            var r := UpdateState(s, draw);
            && |p.items| <= |r.items|
            && r.items[..|p.items|] == p.items
            && (r.nextId == s.nextId ==> r.items == p.items && r.bucket.level == p.level)
    decreases CascadeWeight(s), 1
  {
    var t := StartFrame(s);
    if t.framesUntilNextToken == Frames(0) {
      var u := AddToken(t);
      assert UpdateState(s, draw) == UpdateState(u, draw);
      InjectedItemComesLast(s, u, draw);
    } else if t.requestPeriod.Some? && t.framesUntilNextRequest == 0 {
      var u := AddRequest(t, t.requestBurstiness, draw.value);
      assert UpdateState(s, draw) == UpdateState(u, None);
      InjectedItemComesLast(s, u, None);
    } else {
      assert UpdateState(s, draw) == FinishFrame(t);
    }
  }

  /** The induction step of OldItemsSettleFirst: the frame rerun after one injection. */
  lemma {:induction false} InjectedItemComesLast(s: State, u: State, draw: Option<nat>)
    requires ValidPeriods(u) && DrawFits(u, draw)
    requires CascadeWeight(u) < CascadeWeight(s)
    requires |u.items| == |s.items| + 1 && u.items[..|s.items|] == s.items
    requires u.bucket == s.bucket && u.nextId == s.nextId + 1
    ensures var p := AdvanceItems(s.items, s.bucket.level, s.bucket.maxLevel);
            var r := UpdateState(u, draw);
            && |p.items| <= |r.items|
            && r.items[..|p.items|] == p.items
            && r.nextId != s.nextId
    decreases CascadeWeight(s), 0
  {
    var added := u.items[|s.items|];
    assert u.items == s.items + [added];
    var p := AdvanceItems(s.items, s.bucket.level, s.bucket.maxLevel);
    var q := AdvanceItems([added], p.level, s.bucket.maxLevel);
    var r := UpdateState(u, draw);
    OldItemsSettleFirst(u, draw);
    AdvanceAppend(s.items, [added], s.bucket.level, s.bucket.maxLevel);
    var pu := AdvanceItems(u.items, u.bucket.level, u.bucket.maxLevel);
    assert pu.items == p.items + q.items;
    assert r.items[..|pu.items|] == pu.items;
    assert r.items[..|p.items|] == r.items[..|pu.items|][..|p.items|];
  }

  /** At most one of the items is not a token. */
  predicate AtMostOneNonToken(items: seq<Item>) {
    forall i, j :: 0 <= i < j < |items| ==> items[i].kind == Token || items[j].kind == Token
  }

  predicate AllTokens(items: seq<Item>) {
    forall i :: 0 <= i < |items| ==> items[i].kind == Token
  }

  /**
   * A frame injects at most one automatic request: of the items that follow
   * the pass over the old ones, at most one is not a token. A frame that is
   * given no draw injects only tokens.
   */
  lemma {:induction false} FrameInjectsAtMostOneRequest(s: State, draw: Option<nat>)
    requires ValidPeriods(s)
    requires DrawFits(s, draw)
    ensures var p := AdvanceItems(s.items, s.bucket.level, s.bucket.maxLevel);
            var r := UpdateState(s, draw);
            && |p.items| <= |r.items|
            && AtMostOneNonToken(r.items[|p.items|..])
            && (draw.None? ==> AllTokens(r.items[|p.items|..]))
    decreases CascadeWeight(s), 1
  {
    OldItemsSettleFirst(s, draw);
    var t := StartFrame(s);
    if t.framesUntilNextToken == Frames(0) {
      var u := AddToken(t);
      assert UpdateState(s, draw) == UpdateState(u, draw);
      InjectionsAfterOne(s, u, draw);
    } else if t.requestPeriod.Some? && t.framesUntilNextRequest == 0 {
      var u := AddRequest(t, t.requestBurstiness, draw.value);
      assert UpdateState(s, draw) == UpdateState(u, None);
      InjectionsAfterOne(s, u, None);
    } else {
      assert UpdateState(s, draw) == FinishFrame(t);
    }
  }

  /** The induction step of FrameInjectsAtMostOneRequest: the frame rerun after one injection. */
  lemma {:induction false} InjectionsAfterOne(s: State, u: State, draw: Option<nat>)
    requires ValidPeriods(u) && DrawFits(u, draw)
    requires CascadeWeight(u) < CascadeWeight(s)
    requires |u.items| == |s.items| + 1 && u.items[..|s.items|] == s.items
    requires u.bucket == s.bucket && u.nextId == s.nextId + 1
    requires || (u.items[|s.items|].kind == Token && u.items[|s.items|].age == 0)
             || (u.items[|s.items|].kind == Request && draw.None?)
    ensures var p := AdvanceItems(s.items, s.bucket.level, s.bucket.maxLevel);
            var r := UpdateState(u, draw);
            && |p.items| <= |r.items|
            && AtMostOneNonToken(r.items[|p.items|..])
            && (draw.None? && u.items[|s.items|].kind == Token ==> AllTokens(r.items[|p.items|..]))
    decreases CascadeWeight(s), 0
  {
    OldItemsSettleFirst(u, draw);
    FrameInjectsAtMostOneRequest(u, draw);
    InjectionFollowsPass(s.items, u.items, UpdateState(u, draw).items, s.bucket.level, s.bucket.maxLevel, draw.None?);
  }

  /**
   * The items `rs` of a frame rerun on `items`, which are `old_` plus one
   * injected item, seen from after the pass over `old_`.
   */
  lemma InjectionFollowsPass(old_: seq<Item>, items: seq<Item>, rs: seq<Item>, level: int, maxLevel: int, noDraw: bool)
    requires |items| == |old_| + 1 && items[..|old_|] == old_
    requires || (items[|old_|].kind == Token && items[|old_|].age == 0)
             || (items[|old_|].kind == Request && noDraw)
    requires var pu := AdvanceItems(items, level, maxLevel).items;
      && |pu| <= |rs| && rs[..|pu|] == pu
      && AtMostOneNonToken(rs[|pu|..])
      && (noDraw ==> AllTokens(rs[|pu|..]))
    ensures var p := AdvanceItems(old_, level, maxLevel).items;
      && |p| <= |rs|
      && AtMostOneNonToken(rs[|p|..])
      && (noDraw && items[|old_|].kind == Token ==> AllTokens(rs[|p|..]))
  {
    var added := items[|old_|];
    var p := AdvanceItems(old_, level, maxLevel);
    var q := AdvanceItems([added], p.level, maxLevel);
    PassWithInjected(old_, items, level, maxLevel);
    InjectionsAfterPass(rs, AdvanceItems(items, level, maxLevel).items, p.items, q.items, added.kind, noDraw);
  }

  /** The pass over the old items plus one injected item, split at the injection. */
  lemma PassWithInjected(old_: seq<Item>, items: seq<Item>, level: int, maxLevel: int)
    requires |items| == |old_| + 1 && items[..|old_|] == old_
    requires var added := items[|old_|];
      (added.kind == Token && added.age == 0) || added.kind == Request
    ensures var added := items[|old_|];
      var p := AdvanceItems(old_, level, maxLevel);
      var q := AdvanceItems([added], p.level, maxLevel).items;
      && AdvanceItems(items, level, maxLevel).items == p.items + q
      && |q| <= 1
      && (forall k :: 0 <= k < |q| ==> (q[k].kind == Token <==> added.kind == Token))
  {
    var added := items[|old_|];
    assert items == old_ + [added];
    AdvanceAppend(old_, [added], level, maxLevel);
    InjectedItemStep(added, AdvanceItems(old_, level, maxLevel).level, maxLevel);
  }

  /**
   * The items after a pass `a`, when the pass `pu` over the old items and the
   * injection is `a + b` and the later injections of `rs` follow it.
   */
  lemma InjectionsAfterPass(rs: seq<Item>, pu: seq<Item>, a: seq<Item>, b: seq<Item>, kind: Kind, noDraw: bool)
    requires pu == a + b
    requires |pu| <= |rs| && rs[..|pu|] == pu
    requires AtMostOneNonToken(rs[|pu|..])
    requires noDraw ==> AllTokens(rs[|pu|..])
    requires |b| <= 1
    requires forall k :: 0 <= k < |b| ==> (b[k].kind == Token <==> kind == Token)
    requires kind != Token ==> noDraw
    ensures |a| <= |rs| && AtMostOneNonToken(rs[|a|..])
    ensures noDraw && kind == Token ==> AllTokens(rs[|a|..])
  {
    SuffixAfterPrefix(rs, a, b);
    InjectionsJoin(b, rs[|a| + |b|..], kind);
  }

  /** What follows a prefix `a + b` of `rs`, seen from after `a`. */
  lemma SuffixAfterPrefix(rs: seq<Item>, a: seq<Item>, b: seq<Item>)
    requires |a| + |b| <= |rs| && rs[..|a| + |b|] == a + b
    ensures rs[|a|..] == b + rs[|a| + |b|..]
  {
    assert rs == rs[..|a| + |b|] + rs[|a| + |b|..];
  }

  /** A new token survives its first step as a token; a new request never becomes one. */
  lemma InjectedItemStep(added: Item, level: int, maxLevel: int)
    requires (added.kind == Token && added.age == 0) || added.kind == Request
    ensures var q := AdvanceItems([added], level, maxLevel).items;
      && |q| <= 1
      && (forall k :: 0 <= k < |q| ==> (q[k].kind == Token <==> added.kind == Token))
      && (added.kind == Token ==> |q| == 1)
  {
    var st := Step(added, level, maxLevel);
    assert AdvanceItems([added], level, maxLevel).items == if st.kept.Some? then [st.kept.value] else [];
    if added.kind == Token {
      assert Survives(added) && !Arrives(added);
    }
  }

  /** The stepped injected item followed by the later injections. */
  lemma InjectionsJoin(q: seq<Item>, later: seq<Item>, kind: Kind)
    requires |q| <= 1
    requires forall k :: 0 <= k < |q| ==> (q[k].kind == Token <==> kind == Token)
    requires AtMostOneNonToken(later)
    requires kind != Token ==> AllTokens(later)
    ensures AtMostOneNonToken(q + later)
    ensures kind == Token && AllTokens(later) ==> AllTokens(q + later)
  {
    var all := q + later;
    forall i, j | 0 <= i < j < |all|
      ensures all[i].kind == Token || all[j].kind == Token
    {
      if i >= |q| {
        assert all[i] == later[i - |q|] && all[j] == later[j - |q|];
      } else {
        assert all[j] == later[j - |q|];
      }
    }
  }

  /**
   * The replenishment schedule of one frame. A token due this frame is
   * injected, and after the pass over the old items it is the first new
   * item, one frame old and still at the start of its path. A request due
   * this frame is injected too. A frame with nothing due injects nothing and
   * moves both countdowns one frame closer.
   */
  lemma FrameSchedule(s: State, draw: Option<nat>)
    requires ValidPeriods(s) && DrawFits(s, draw)
    ensures var p := AdvanceItems(s.items, s.bucket.level, s.bucket.maxLevel);
      var r := UpdateState(s, draw);
      && (TokenDue(s) ==> r.nextId > s.nextId && |p.items| < |r.items|
                          && r.items[|p.items|] == Item(s.nextId, 1, 0, Token))
      && (s.requestPeriod.Some? && s.framesUntilNextRequest <= 1 ==>
            && s.requestPeriod.value - 2 <= r.framesUntilNextRequest < s.requestPeriod.value
            && r.nextId >= s.nextId + 1 + (if TokenDue(s) then 1 else 0))
      && (!TokenDue(s) && (s.requestPeriod.None? || s.framesUntilNextRequest >= 2) ==>
            && r.nextId == s.nextId
            && r.framesUntilNextToken == CountDown(s.framesUntilNextToken)
            && (s.requestPeriod.Some? ==> r.framesUntilNextRequest == s.framesUntilNextRequest - 1))
  {
    if TokenDue(s) {
      var t := StartFrame(s);
      var u := AddToken(t);
      assert UpdateState(s, draw) == UpdateState(u, draw);
      FirstInjectedToken(s, u, draw);
    }
    if s.requestPeriod.Some? && s.framesUntilNextRequest <= 1 {
      DueRequestRestartsCountdown(s, draw);
    }
    if !TokenDue(s) && (s.requestPeriod.None? || s.framesUntilNextRequest >= 2) {
      NothingDue(s, draw);
    }
  }

  /** A frame with neither a token nor a request due injects nothing and moves both countdowns one frame closer. */
  lemma NothingDue(s: State, draw: Option<nat>)
    requires ValidPeriods(s) && DrawFits(s, draw)
    requires !TokenDue(s) && (s.requestPeriod.None? || s.framesUntilNextRequest >= 2)
    ensures var r := UpdateState(s, draw);
      && r.nextId == s.nextId
      && r.framesUntilNextToken == CountDown(s.framesUntilNextToken)
      && (s.requestPeriod.Some? ==> r.framesUntilNextRequest == s.framesUntilNextRequest - 1)
  {
    assert UpdateState(s, draw) == FinishFrame(StartFrame(s));
  }

  /**
   * A request due this frame is injected, after the token when one is due
   * too, and the request countdown ends the frame restarted: one or two
   * frames below the period, depending on whether a token follows it.
   */
  lemma DueRequestRestartsCountdown(s: State, draw: Option<nat>)
    requires ValidPeriods(s) && DrawFits(s, draw)
    requires s.requestPeriod.Some? && s.framesUntilNextRequest <= 1
    ensures var r := UpdateState(s, draw);
      && s.requestPeriod.value - 2 <= r.framesUntilNextRequest < s.requestPeriod.value
      && r.nextId >= s.nextId + 1 + (if TokenDue(s) then 1 else 0)
  {
    var t := StartFrame(s);
    if t.framesUntilNextToken == Frames(0) {
      var v := AddToken(t);
      assert UpdateState(s, draw) == UpdateState(v, draw);
      var t2 := StartFrame(v);
      assert t2.framesUntilNextToken != Frames(0) && t2.framesUntilNextRequest == 0;
      var w := AddRequest(t2, t2.requestBurstiness, draw.value);
      assert UpdateState(v, draw) == UpdateState(w, None);
      RequestCountdownAfterInjection(w);
    } else {
      var w := AddRequest(t, t.requestBurstiness, draw.value);
      assert UpdateState(s, draw) == UpdateState(w, None);
      RequestCountdownAfterInjection(w);
    }
  }

  /**
   * Right after a request is injected its countdown equals the period; the
   * rest of the frame takes it one step down, or two when a token falls due
   * in between.
   */
  lemma RequestCountdownAfterInjection(u: State)
    requires ValidPeriods(u) && u.requestPeriod.Some?
    requires u.framesUntilNextRequest == u.requestPeriod.value
    requires u.framesUntilNextToken != Frames(0)
    ensures DrawFits(u, None)
    ensures var r := UpdateState(u, None);
      u.requestPeriod.value - 2 <= r.framesUntilNextRequest < u.requestPeriod.value
  {
    var t := StartFrame(u);
    if t.framesUntilNextToken == Frames(0) {
      var v := AddToken(t);
      assert UpdateState(u, None) == UpdateState(v, None);
      var t2 := StartFrame(v);
      assert t2.framesUntilNextToken != Frames(0) && t2.framesUntilNextRequest != 0;
      assert UpdateState(v, None) == FinishFrame(t2);
    } else {
      assert UpdateState(u, None) == FinishFrame(t);
    }
  }

  /** The token a frame injects first is stepped once, right after the old items. */
  lemma FirstInjectedToken(s: State, u: State, draw: Option<nat>)
    requires ValidPeriods(u) && DrawFits(u, draw)
    requires |u.items| == |s.items| + 1 && u.items[..|s.items|] == s.items
    requires u.items[|s.items|] == Item(s.nextId, 0, 0, Token)
    requires u.bucket == s.bucket
    ensures var p := AdvanceItems(s.items, s.bucket.level, s.bucket.maxLevel);
      var r := UpdateState(u, draw);
      |p.items| < |r.items| && r.items[|p.items|] == Item(s.nextId, 1, 0, Token)
  {
    OldItemsSettleFirst(u, draw);
    FreshTokenFollowsPass(s.items, u.items, UpdateState(u, draw).items, s.bucket.level, s.bucket.maxLevel);
  }

  /**
   * The items `rs` of a frame rerun on `items`, which are `old_` plus a fresh
   * token: right after the pass over `old_` comes the token, one frame old.
   */
  lemma FreshTokenFollowsPass(old_: seq<Item>, items: seq<Item>, rs: seq<Item>, level: int, maxLevel: int)
    requires |items| == |old_| + 1 && items[..|old_|] == old_
    requires items[|old_|].kind == Token && items[|old_|].age == 0 && items[|old_|].position == 0
    requires var pu := AdvanceItems(items, level, maxLevel).items;
      |pu| <= |rs| && rs[..|pu|] == pu
    ensures var p := AdvanceItems(old_, level, maxLevel).items;
      |p| < |rs| && rs[|p|] == items[|old_|].(age := 1)
  {
    var p := AdvanceItems(old_, level, maxLevel);
    PassWithFreshToken(old_, items, level, maxLevel);
    SuffixAfterPrefix(rs, p.items, [items[|old_|].(age := 1)]);
  }

  /** A fresh token after the old items comes out of the pass one frame old, at position 0, right after them. */
  lemma PassWithFreshToken(old_: seq<Item>, items: seq<Item>, level: int, maxLevel: int)
    requires |items| == |old_| + 1 && items[..|old_|] == old_
    requires items[|old_|].kind == Token && items[|old_|].age == 0 && items[|old_|].position == 0
    ensures var p := AdvanceItems(old_, level, maxLevel);
      AdvanceItems(items, level, maxLevel).items == p.items + [items[|old_|].(age := 1)]
  {
    var added := items[|old_|];
    assert items == old_ + [added];
    var p := AdvanceItems(old_, level, maxLevel);
    AdvanceAppend(old_, [added], level, maxLevel);
    var st := Step(added, p.level, maxLevel);
    assert Survives(added) && !Arrives(added);
    assert ApproachPosition(1) == 0;
    assert AdvanceItems([added], p.level, maxLevel).items == [st.kept.value];
  }

  /** With no token rate and no automatic requests, a frame is a single pass. */
  lemma QuietFrame(s: State, draw: Option<nat>)
    requires s.framesUntilNextToken == Never && s.requestPeriod.None?
    requires ValidPeriods(s) && DrawFits(s, draw)
    ensures UpdateState(s, draw) == FinishFrame(StartFrame(s))
    ensures UpdateState(s, draw).framesUntilNextToken == Never
    ensures UpdateState(s, draw).frameCount == s.frameCount + 1
  {
  }

  /**
   * A frame in which a token falls due counts twice and runs the countdowns
   * twice, so the next token is due one frame before a full period has passed.
   */
  lemma TokenFrameRunsCountdownTwice(s: State)
    requires s.tokenPeriod.Frames? && s.tokenPeriod.n >= 2
    requires s.framesUntilNextToken == Frames(1) && s.requestPeriod.None?
    ensures var r := UpdateState(s, Some(0));
      && r.framesUntilNextToken == Frames(s.tokenPeriod.n - 1)
      && r.nextId == s.nextId + 1
      && r.frameCount == s.frameCount + 2
  {
    var t := StartFrame(s);
    assert t.framesUntilNextToken == Frames(0);
    var u := AddToken(t);
    var t2 := StartFrame(u);
    assert t2.framesUntilNextToken == Frames(s.tokenPeriod.n - 1);
    assert UpdateState(u, Some(0)) == FinishFrame(t2);
    assert UpdateState(s, Some(0)) == UpdateState(u, Some(0));
  }

  /** The settings the user interface offers (30 frames per second, token rate 0.1 to 5, request rate 0 to 5) make every frame end. */
  lemma InterfaceSettingsTerminate(maxLevel: int, tokensPerSecond: real, requestsPerSecond: real, burstiness: real)
    requires 0.1 <= tokensPerSecond <= 5.0
    requires 0.0 <= requestsPerSecond <= 5.0
    ensures ValidPeriods(CreateInitialState(maxLevel, tokensPerSecond, 30, requestsPerSecond, burstiness))
  {
    var q := 30.0 / tokensPerSecond;
    assert q * tokensPerSecond == 30.0;
    assert q >= 6.0;
    if requestsPerSecond > 0.0 {
      var q' := 30.0 / requestsPerSecond;
      assert q' * requestsPerSecond == 30.0;
      assert q' >= 6.0;
    }
  }

  /**
   * With tokens off, a request period of 2 (say 30 requests per second at 60
   * frames per second) is admitted, and a frame in which the request falls
   * due injects exactly one request and leaves the countdown at 1.
   */
  lemma TokensOffRequestPeriodTwo(maxLevel: int, burstiness: real, s: State, draw: nat)
    requires s.tokenPeriod == Never && s.framesUntilNextToken == Never
    requires s.requestPeriod == Some(2) && s.framesUntilNextRequest <= 1
    requires draw < DrawBound(s.requestBurstiness)
    ensures ValidPeriods(CreateInitialState(maxLevel, 0.0, 60, 30.0, burstiness))
    ensures var r := UpdateState(s, Some(draw));
      r.nextId == s.nextId + 1 && r.framesUntilNextRequest == 1
  {
    var init := CreateInitialState(maxLevel, 0.0, 60, 30.0, burstiness);
    assert 60.0 / 30.0 == 2.0;
    assert init.requestPeriod == Some(2);
    var t := StartFrame(s);
    var u := AddRequest(t, t.requestBurstiness, draw);
    assert UpdateState(s, Some(draw)) == UpdateState(u, None);
    var t2 := StartFrame(u);
    assert UpdateState(u, None) == FinishFrame(t2);
  }

  // ---------------------------------------------------------------------------
  // Many frames
  // ---------------------------------------------------------------------------

  /** `frames` consecutive frames in which every random draw is zero. */
  function Run(s: State, frames: nat): (r: State)
    requires ValidPeriods(s)
    ensures r.tokenPeriod == s.tokenPeriod && r.requestPeriod == s.requestPeriod
    ensures r.requestBurstiness == s.requestBurstiness && r.bucket.maxLevel == s.bucket.maxLevel
    ensures r.frameCount >= s.frameCount + frames
    ensures Valid(s) ==> Valid(r)
    decreases frames
  {
    if frames == 0 then s else UpdateState(Run(s, frames - 1), Some(0))
  }

  /** One more frame of a run. */
  lemma RunStep(s: State, n: nat)
    requires ValidPeriods(s)
    ensures ValidPeriods(Run(s, n))
    ensures Run(s, n + 1) == UpdateState(Run(s, n), Some(0))
  {
  }

  /** A request that has not reached the bucket moves one step per frame, whatever is injected behind it. */
  lemma {:induction false} FirstRequestTravels(s: State, n: nat)
    requires ValidPeriods(s)
    requires |s.items| > 0 && s.items[0].kind == Request
    requires s.items[0].position == s.items[0].age * 100 / ArrivalFrames
    requires s.items[0].age + n < ArrivalFrames
    ensures var r := Run(s, n);
      && |r.items| > 0
      && r.items[0] == Item(s.items[0].id, s.items[0].age + n, (s.items[0].age + n) * 100 / ArrivalFrames, Request)
    decreases n
  {
    if n > 0 {
      FirstRequestTravels(s, n - 1);
      var prev := Run(s, n - 1);
      var r := Run(s, n);
      assert r == UpdateState(prev, Some(0));
      OldItemsSettleFirst(prev, Some(0));
      var p := AdvanceItems(prev.items, prev.bucket.level, prev.bucket.maxLevel);
      var it := prev.items[0];
      assert Survives(it) && !Arrives(it);
      var st := Step(it, prev.bucket.level, prev.bucket.maxLevel);
      assert p.items[0] == st.kept.value;
      assert r.items[0] == r.items[..|p.items|][0];
      var age := s.items[0].age + n;
      assert st.kept.value.age == age && st.kept.value.kind == Request;
      assert ApproachPosition(age) == age * 100 / ArrivalFrames;
      assert st.kept.value.id == s.items[0].id;
      assert st.kept.value.position == ApproachPosition(age);
      assert st.kept.value == Item(s.items[0].id, age, age * 100 / ArrivalFrames, Request);
    }
  }

  /** The first request of a lone-request run after `n` frames, and the level then. */
  function LoneRequestAt(id: nat, level: int, n: nat): (seq<Item>, int) {
    if n < ArrivalFrames then ([Item(id, n, n * 100 / ArrivalFrames, Request)], level)
    else if n <= ArrivalFrames + ProcessedLifetime then
      ([Item(id, n, DepartPosition(n), if level > 0 then Processed else Dropped)],
       if level > 0 then level - 1 else level)
    else ([], if level > 0 then level - 1 else level)
  }

  /**
   * With no token rate and no automatic requests, a single new request
   * travels for 120 frames, is admitted if the bucket holds a token and
   * dropped otherwise, lingers for 120 more frames and then disappears.
   */
  lemma {:induction false} LoneRequest(s: State, n: nat)
    requires s.framesUntilNextToken == Never && s.requestPeriod.None? && ValidPeriods(s)
    requires |s.items| == 1 && s.items[0].age == 0 && s.items[0].position == 0 && s.items[0].kind == Request
    ensures (Run(s, n).items, Run(s, n).bucket.level) == LoneRequestAt(s.items[0].id, s.bucket.level, n)
    ensures Run(s, n).framesUntilNextToken == Never
    decreases n
  {
    if n == 0 {
      LoneRequestStart(s);
    } else {
      LoneRequest(s, n - 1);
      RunStep(s, n - 1);
      LoneRequestStep(Run(s, n - 1), s.items[0].id, s.bucket.level, n - 1);
    }
  }

  /** The state a lone-request run starts from. */
  lemma LoneRequestStart(s: State)
    requires |s.items| == 1 && s.items[0].age == 0 && s.items[0].position == 0 && s.items[0].kind == Request
    ensures (s.items, s.bucket.level) == LoneRequestAt(s.items[0].id, s.bucket.level, 0)
  {
    assert s.items == [Item(s.items[0].id, 0, 0, Request)];
  }

  /** One frame of a lone-request run. */
  lemma LoneRequestStep(prev: State, id: nat, level: int, m: nat)
    requires prev.framesUntilNextToken == Never && prev.requestPeriod.None? && ValidPeriods(prev)
    requires (prev.items, prev.bucket.level) == LoneRequestAt(id, level, m)
    ensures var r := UpdateState(prev, Some(0));
      && (r.items, r.bucket.level) == LoneRequestAt(id, level, m + 1)
      && r.framesUntilNextToken == Never
  {
    QuietFrame(prev, Some(0));
    var n := m + 1;
    var r := UpdateState(prev, Some(0));
    var swept := AdvanceItems(prev.items, prev.bucket.level, prev.bucket.maxLevel);
    assert r.items == swept.items && r.bucket.level == swept.level;
    if |prev.items| > 0 {
      var it := prev.items[0];
      assert prev.items == [it];
      var st := Step(it, prev.bucket.level, prev.bucket.maxLevel);
      assert swept == if st.kept.Some? then Swept([st.kept.value], st.level) else Swept([], st.level);
      if n < ArrivalFrames {
        assert ApproachPosition(n) == n * 100 / ArrivalFrames;
        assert st.kept == Some(Item(id, n, n * 100 / ArrivalFrames, Request));
      } else if n == ArrivalFrames {
        assert ApproachPosition(n) == 100 == DepartPosition(n);
        assert st.kept == Some(Item(id, n, 100, if level > 0 then Processed else Dropped));
      }
    }
  }

  // ---------------------------------------------------------------------------
  // Scenarios of the unit tests
  // ---------------------------------------------------------------------------

  /** A bucket of 10 at 5 tokens per second and 60 frames per second starts full with a 12-frame token countdown. */
  lemma InitialStateExample()
    ensures var s := CreateInitialState(10, 5.0, 60, 0.0, 0.0);
      && s.bucket == Bucket(10, 10) && s.items == [] && s.nextId == 1 && s.frameCount == 0
      && s.framesUntilNextToken == Frames(12)
  {
    var s := CreateInitialState(10, 5.0, 60, 0.0, 0.0);
    assert 60.0 / 5.0 == 12.0;
  }

  /** A manual request and a token each get the next id and start at the beginning of the path. */
  lemma AddItemExamples()
    ensures var s := CreateInitialState(10, 5.0, 60, 0.0, 0.0);
      && AddRequest(s, 0.0, 0).items == [Item(1, 0, 0, Request)] && AddRequest(s, 0.0, 0).nextId == 2
      && AddToken(s).items == [Item(1, 0, 0, Token)] && AddToken(s).nextId == 2
      && AddToken(s).framesUntilNextToken == Frames(12)
  {
    InitialStateExample();
  }

  /** A single new request in an otherwise idle model, from the state the interface would build. */
  predicate LoneRequestSetup(s: State) {
    && s.framesUntilNextToken == Never && s.requestPeriod.None? && ValidPeriods(s)
    && |s.items| == 1 && s.items[0].age == 0 && s.items[0].position == 0 && s.items[0].kind == Request
  }

  /** With no token arrivals, a lone request settles after 120 frames and is gone after 241. */
  lemma LoneRequestOutcome(s: State)
    requires LoneRequestSetup(s)
    ensures |Run(s, 120).items| == 1
    ensures Run(s, 120).items[0].kind == (if s.bucket.level > 0 then Processed else Dropped)
    ensures Run(s, 120).bucket.level == (if s.bucket.level > 0 then s.bucket.level - 1 else s.bucket.level)
    ensures Run(s, 241).items == []
  {
    LoneRequest(s, 120);
    LoneRequest(s, 241);
  }

  /** After 60 frames a new request is halfway to the bucket, whatever the capacity. */
  lemma RequestHalfwayAfter60Frames(maxLevel: int)
    ensures var s := AddRequest(CreateInitialState(maxLevel, 5.0, 60, 0.0, 0.0), 0.0, 0);
      ValidPeriods(s) && |Run(s, 60).items| > 0 && Run(s, 60).items[0] == Item(1, 60, 50, Request)
  {
    var s0 := CreateInitialState(maxLevel, 5.0, 60, 0.0, 0.0);
    assert 60.0 / 5.0 == 12.0;
    assert s0.tokenPeriod == Frames(12);
    var s := AddRequest(s0, 0.0, 0);
    assert s.items == [Item(1, 0, 0, Request)];
    assert ValidPeriods(s);
    FirstRequestTravels(s, 60);
  }

  /** With no tokens in the bucket and none coming, the request is dropped after 120 frames. */
  lemma DroppedWhenEmptyExample(maxLevel: int)
    ensures var s0 := CreateInitialState(maxLevel, 0.0, 60, 0.0, 0.0);
      var s := AddRequest(s0.(bucket := s0.bucket.(level := 0)), 0.0, 0);
      LoneRequestSetup(s) && |Run(s, 120).items| == 1 && Run(s, 120).items[0].kind == Dropped && Run(s, 120).bucket.level == 0
  {
    var s0 := CreateInitialState(maxLevel, 0.0, 60, 0.0, 0.0);
    var s := AddRequest(s0.(bucket := s0.bucket.(level := 0)), 0.0, 0);
    assert s.items == [Item(1, 0, 0, Request)] && s.bucket.level == 0;
    assert LoneRequestSetup(s);
    LoneRequestOutcome(s);
  }

  /**
   * In a full bucket a request is processed after 120 frames, taking one
   * token, and is gone 121 frames later.
   */
  lemma ProcessedExpiresExample(maxLevel: int)
    requires maxLevel >= 1
    ensures var s := AddRequest(CreateInitialState(maxLevel, 0.0, 60, 0.0, 0.0), 0.0, 0);
      && LoneRequestSetup(s)
      && |Run(s, 120).items| == 1 && Run(s, 120).items[0].kind == Processed
      && Run(s, 120).bucket.level == maxLevel - 1
      && |Run(s, 241).items| == 0
  {
    var s := AddRequest(CreateInitialState(maxLevel, 0.0, 60, 0.0, 0.0), 0.0, 0);
    assert s.items == [Item(1, 0, 0, Request)] && s.bucket.level == maxLevel;
    assert LoneRequestSetup(s);
    LoneRequestOutcome(s);
  }
}
